=== FILE: README.md ===
# DataBroker of articlemeta, modelled in Dafny

This project models the in-memory logic of `DataBroker` in `articlemeta/controller.py`: the
SciELO article-metadata broker that stores journals and articles in MongoDB, keeps a change
history per document type, and serves paginated identifier listings.

The model follows the program's structure:

- `wrappers.dfy` (`Wrappers`): `Option` for Python's `None`-or-value, `Result` for a value or a
  raised `KeyError`.
- `pystr.dfy` (`PyStr`): the Python string behaviour the broker relies on. This covers clamped
  slicing `s[i:j]`, the truthiness of `None`/`''`, `x or default`, and lexicographic `<`/`<=`
  (the order MongoDB's `$gt`/`$gte`/`$lte` apply to string fields).
- `documents.dfy` (`Documents`): documents are maps from fields to values (`None`, string or list
  of values).
  This module also holds the query subset the broker uses and MongoDB's `$set` merge. An equality
  condition matches a value or an array holding it. `{f: None}` also matches a missing field.
  Fields the broker names are constructors, and any other key of a raw record is `Raw(name)`. A
  raw record is canonical (`RawDoc`): as in a Python dictionary, each key name occurs once, so no
  `Raw("code")` stands beside `code`.
- `store.dfy` (`Store`): the MongoDB collaborator, as named collections in natural order. It covers
  `find`, `count`, `find_one`, `skip`/`limit`/`sort`, `insert`, `remove`, and `update` with and
  without `upsert`.
- `normalize.dfy` (`Normalize`): `_check_article_meta` and `_check_journal_meta`. The xylose
  parsing is an input (`ParsedArticle`, `ParsedJournal`).
- `history.dfy` (`History`): `_log_changes` and `historychanges`.
- `listing.dfy` (`Listing`): offset/limit clamping, the `{meta, objects}` page, and the three
  identifier listings.
- `broker.dfy` (`Broker`): the mutations and point reads. These are `add_journal`,
  `delete_journal`, `get_journal`, `add_article`, `update_article`, `delete_article`,
  `set_doaj_status`, `get_article` and `exists_article`.
- `broker_laws.dfy` (`BrokerLaws`): what the operations promise about one another. A read after
  a write sees it, repeated adds converge, and deletes are seen by reads. A store built only
  through the broker can always be listed without `KeyError`.

The clock and the random shard id are parameters: `Env(now, today, shard)` carries
`datetime.now().isoformat()`, `datetime.now().date().isoformat()` and `uuid.uuid4().hex`.

Each mutation decorated with `LogHistoryChange` is modelled as the method followed by one
`_log_changes(type, result['code'], event, result['collection'])` call, once the method returns.
A method that raises logs nothing. The decorator's module is not part of this model; this
behaviour is inferred from how the decorator is applied and from what the decorated methods
return.

Some behaviours of the code are easy to misread:

- `add_article` copies `processing_date` into `created_at` on every add, even over a stored
  record, so re-adding resets the creation date. `BrokerLaws.AddArticleThenGet` states this.
- `update_article` does not have `add_article`'s effect: it never adds `created_at` itself, so a
  stored article keeps its creation date (`BrokerLaws.UpdateKeepsCreatedAt`); a raw record that
  carries `created_at` overwrites the stored value. It cannot raise.
- The identifier listings default `until_date` to today's date; the history listing defaults it
  to the current timestamp.
- `code_title` is `list(set(...))`, whose order Python leaves open. The model keeps the
  electronic ISSN before the print ISSN, which is one of the possible orders.

## Model

| member | source | states |
|---|---|---|
| Normalize.IssnList | articlemeta/controller.py:130-133 | the ISSN list holds exactly the electronic and print ISSNs (a failed lookup kept as `None`), each once: one entry when they coincide, two otherwise |
| Normalize.IssueCode | articlemeta/controller.py:100 | `code_issue` is at most 17 characters, a prefix of the code after its first character, and exactly 17 characters for codes of 18 or more |
| Normalize.Year | articlemeta/controller.py:104 | `publication_year` is a prefix of the publication date, four characters long or the whole date when shorter |
| Normalize.ProcessingDateRule | articlemeta/controller.py:115-119 | the source's processing date wins; without one, today is used only when the publication date sorts after today; otherwise there is none |
| Normalize.CheckArticleMeta | articlemeta/controller.py:88-121 | the normalised article is keyed by publisher id and collection acronym, and has a processing date exactly when the rule gives one or the raw record already had one |
| Normalize.ArticleIdentifiers | articlemeta/controller.py:99-104 | normalisation writes the issue code, the ISSN list as `code_title`, the document type and the publication year |
| Normalize.ArticleFlags | articlemeta/controller.py:105-110 | every status flag starts as the string `'False'` and `_shard_id` is the shard drawn |
| Normalize.ArticleOptionalFields | articlemeta/controller.py:112-119 | `doi` and `processing_date` are written when available and otherwise left exactly as the raw record had them (present or absent) |
| Normalize.ArticlePassThrough | articlemeta/controller.py:94-121 | normalisation adds no field outside its own fourteen, and every other raw field survives unchanged |
| Normalize.CreatedAtUntouched | articlemeta/controller.py:88-121 | normalisation never writes `created_at`: its presence and value are the raw record's |
| Normalize.ShardIsTheOnlyDifference | articlemeta/controller.py:110 | two normalisations of one record on one day differ only in `_shard_id` |
| Normalize.ArticleStaysCanonical | articlemeta/controller.py:99-121 | the normalised article still holds each key name once |
| Normalize.CheckJournalMeta | articlemeta/controller.py:123-136 | the journal record gains `code` (the ISSN list) and `collection`, and keeps every other raw field |
| Normalize.JournalStaysCanonical | articlemeta/controller.py:133-134 | the normalised journal still holds each key name once |
| Documents.CanonicalNamesDistinct | articlemeta/controller.py:99-110 | in a raw record two keys with the same name are the same key |
| Documents.NoRawShadow | articlemeta/controller.py:99-110 | a raw record holds no raw key spelled like a named field, so assigning `metadata['code']` replaces the one `code` entry |
| Documents.MergeKeepsCanonical | articlemeta/controller.py:133-134 | setting named fields over a record that holds each key name once keeps it so |
| Documents.Merge | articlemeta/controller.py:228 | `$set` of a patch: the record gains exactly the patch's keys, carries every patched value, and keeps every other field as it was |
| Documents.Pick | articlemeta/controller.py:182 | `{f: i[f] for f in fields}` raises `KeyError` naming the first missing field exactly when some field is missing; otherwise it holds exactly those fields with the document's values |
| Documents.PickAll | articlemeta/controller.py:279 | the list comprehension succeeds exactly when every document carries every field, and then projects each document in order |
| Store.Find | articlemeta/controller.py:199 | `find(f)` holds exactly the stored documents matching `f`; it is the order-keeping selection whose order and multiplicities the next two rows state |
| Store.SelectAppend | articlemeta/controller.py:199 | a document appended to a collection comes last in a selection when it is selected and changes nothing otherwise, so `find` and `remove` keep stored order |
| Store.SelectMultiplicity | articlemeta/controller.py:199 | a selection holds each selected document exactly as often as the collection does, and no other |
| Store.Count | articlemeta/controller.py:416 | `count()` is zero exactly when no document matches, and never exceeds the collection |
| Store.CountMatches | articlemeta/controller.py:172 | `count()` is the number of positions of the collection holding a matching document |
| Store.FindOne | articlemeta/controller.py:377 | `find_one` returns a matching stored document exactly when one exists |
| Store.UpsertInto | articlemeta/controller.py:226-231 | an upsert changes only the first match, appends one document exactly when nothing matched, and every document it writes has every key of the patch |
| Store.UpsertFinds | articlemeta/controller.py:443-448 | when the patch agrees with the filter, `find_one` on the filter afterwards returns the previous first match (or the filter's seed) with the patch set over it |
| Store.UpsertStores | articlemeta/controller.py:443-448 | after an upsert the collection holds the previous first match (or the filter's seed) with every field of the patch set over it |
| Store.UpsertLeavesUnwritten | articlemeta/controller.py:460-465 | a field that neither the patch nor the key writes keeps through an upsert whatever the first match had, and is absent on a new record |
| Store.UpsertTwice | articlemeta/controller.py:443-448 | upserting twice under one key, the second patch covering the first, equals the second upsert alone |
| Store.UpdateFirst | articlemeta/controller.py:471-475 | an update without upsert merges the patch into the first match only and is a no-op when nothing matches |
| Store.Remove | articlemeta/controller.py:214 | `remove(f)` keeps exactly the non-matching documents, each as often and in the order stored, shrinks the collection by the match count, and touches no other collection |
| Store.RemoveNothing | articlemeta/controller.py:214 | `remove(f)` when nothing matches `f` changes no collection |
| Store.Insert | articlemeta/controller.py:147 | `insert` appends the document and returns a position that holds it |
| Store.Window | articlemeta/controller.py:173 | `skip(offset).limit(limit)` is the window from `offset` of at most `limit` documents, and a limit of 0 means no limit |
| Store.SortBy | articlemeta/controller.py:173 | `sort(field)` is an ascending permutation of its input |
| Store.SortKeepsSorted | articlemeta/controller.py:173 | sorting documents already in ascending order returns them unchanged |
| Store.WindowKeepsSorted | articlemeta/controller.py:173 | a `skip`/`limit` window of a sorted sequence is sorted |
| History.EventDoc | articlemeta/controller.py:141-146 | a history event has exactly the keys `code`, `collection`, `event` and `date`, holding the given values |
| History.LogChanges | articlemeta/controller.py:138-148 | for articles and journals exactly one event, dated `date` or else now, is appended to that type's log and its position returned; other types change nothing and return `None` |
| History.HistoryFilter | articlemeta/controller.py:160-170 | an event matches exactly when its date is after `from_date` and at most `until_date`, and it has each given collection, event and code |
| History.HistoryChanges | articlemeta/controller.py:150-187 | the page has the clamped limit and offset, the full match count, and at most `limit` events; the events are in date order, within the window, and are four-field projections of matching events; it succeeds whenever every logged event has the four fields |
| History.HistoryChangesWindow | articlemeta/controller.py:172-182 | the listed events are exactly the `skip`/`limit` window of the matching events in some ascending date order |
| History.ProjectionKeepsOrder | articlemeta/controller.py:182 | cutting documents sorted by a field down to a list of fields that includes it keeps them sorted by it |
| History.PageKeepsOrder | articlemeta/controller.py:173-182 | a page cut from documents sorted by one of the fields it keeps is sorted by that field |
| History.HistoryPageInWindow | articlemeta/controller.py:182 | events projected from events dated inside a window are dated inside it |
| History.HistoryPageDated | articlemeta/controller.py:173-182 | every event on a history page cut from events inside the date window lies inside it |
| History.LogKeepsWellFormed | articlemeta/controller.py:141-147 | logging keeps every event of every log carrying `date`, `code`, `collection` and `event` |
| History.LogThenCount | articlemeta/controller.py:147 | logging one event raises every history count by one when the event matches the query and leaves it unchanged otherwise |
| History.LoggedEventIsListed | articlemeta/controller.py:138-172 | an event logged with a date inside a history window is counted by that window's query |
| Listing.ClampOffset | articlemeta/controller.py:154-155 | a negative offset reads from the start; any other offset is kept |
| Listing.ClampLimit | articlemeta/controller.py:157-158 | a negative limit falls back to `LIMIT` (1000); any other limit, 0 included, is kept |
| Listing.MetaReplays | articlemeta/controller.py:259-281 | the `limit` and `offset` a page reports in `meta`, passed back in, ask for the same page |
| Listing.PageOf | articlemeta/controller.py:172-186 | the `{meta, objects}` page reports the clamped limit and offset, the query and the total, and lists the `skip`/`limit` window projected to the fields, raising `KeyError` exactly when a windowed document lacks one |
| Listing.Listed | articlemeta/controller.py:271-281 | a listing's page counts every match, holds at most `limit` projected matches in stored order starting at `offset`, and never raises when every match carries the fields |
| Listing.JournalFilter | articlemeta/controller.py:267-269 | the journal listing's query matches every journal, or those of the collection when one is given |
| Listing.IdentifiersJournal | articlemeta/controller.py:259-281 | `meta` reports the journal query as its filter and that query's count as its total; the page is the clamped `skip`/`limit` window of the matching journals projected to `code` and `collection`, with the full match count, and never raises when every journal has both fields |
| Listing.ArticleFilter | articlemeta/controller.py:297-304 | an article matches exactly when its processing date lies in the inclusive window and it has the given collection and, in `code_title`, the given ISSN |
| Listing.IdentifiersArticle | articlemeta/controller.py:283-320 | the page is the clamped window of the matching articles projected to code, collection and processing date, with every listed date inside the window (until today by default); it never raises when every article has a code and a collection |
| Listing.ArticleListingSucceeds | articlemeta/controller.py:307-318 | a processing-date window guarantees the third projected field, so keyed articles always project |
| Listing.PressReleaseFilter | articlemeta/controller.py:336-345 | a press release matches exactly when the article query matches and its type is `press-release` |
| Listing.IdentifiersPressRelease | articlemeta/controller.py:322-361 | as for the article listing, restricted to press releases |
| Listing.PressReleasesAreArticles | articlemeta/controller.py:336-347 | the press-release total never exceeds the article total for the same arguments |
| Broker.KeyFilter | articlemeta/controller.py:209-212 | the `{code, collection}` key matches exactly the documents matching both conditions |
| Broker.KeyAgrees | articlemeta/controller.py:443-445 | a record carrying a code and a collection matches its own key after any merge |
| Broker.LookupFilter | articlemeta/controller.py:373-375 | the lookup matches on the code, and also on the collection only when one is given |
| Broker.JournalQuery | articlemeta/controller.py:191-197 | the `get_journal` query tests the collection and the ISSN only when each is given |
| Broker.WriteThenLog | articlemeta/controller.py:147 | a write followed by its log entry leaves the written collection as written, the log grown by one event, and every other collection unchanged |
| Broker.AddJournal | articlemeta/controller.py:218-233 | `add_journal` returns the normalised journal, upserts it on its key, logs one "add" and changes nothing else |
| Broker.DeleteJournal | articlemeta/controller.py:206-216 | `delete_journal` returns its filter, removes exactly the journals with the ISSN and the collection (`None` matching journals without one), keeps the others as often and in the order stored, logs one "delete" and changes nothing else |
| Broker.GetJournal | articlemeta/controller.py:189-204 | `get_journal` lists exactly the journals with the given collection and ISSN, each as often as stored, as many as the query counts |
| Broker.Stamp | articlemeta/controller.py:441 | stamping raises `KeyError('processing_date')` exactly when there is no processing date; otherwise it adds only `created_at`, equal to it |
| Broker.StampedArticle | articlemeta/controller.py:436-441 | the stored record raises exactly when neither the source, the publication date nor the raw record gives a processing date; otherwise it is keyed by code and collection, and its `created_at` equals its `processing_date` |
| Broker.AddArticle | articlemeta/controller.py:433-450 | `add_article` raises exactly when stamping does and then changes nothing; otherwise it upserts the stamped record on its key, logs one "add" and changes nothing else |
| Broker.UpdateArticle | articlemeta/controller.py:452-467 | `update_article` upserts the normalised record on its key (adding no `created_at` of its own), logs one "update" and changes nothing else |
| Broker.DeleteArticle | articlemeta/controller.py:421-431 | `delete_article` removes exactly the articles with the code and the collection (`None` matching articles without one), keeps the others as often and in the order stored, logs one "delete" and changes nothing else |
| Broker.SetDoajStatus | articlemeta/controller.py:469-475 | `set_doaj_status` sets `sent_doaj` on the first article with the code, in any collection, changes nothing else, logs nothing, and is a no-op when no article has the code |
| Broker.GetArticle | articlemeta/controller.py:363-390 | `get_article` returns a matching article exactly when one exists, and then the first in stored order |
| Broker.ExistsArticle | articlemeta/controller.py:409-419 | `exists_article` holds exactly when some article has the code (and the collection when given), which is when `get_article` finds one |
| BrokerLaws.GetArticleIsFindOne | articlemeta/controller.py:377 | `get_article` is `find_one` on the lookup filter |
| BrokerLaws.AddArticleThenGet | articlemeta/controller.py:433-450 | after `add_article`, `get_article` on its key returns the previous record with the new one merged over it, and its `created_at` equals its `processing_date` |
| BrokerLaws.UpdateArticleThenGet | articlemeta/controller.py:452-467 | after `update_article`, `get_article` on its key returns the previous record with the normalised one merged over it |
| BrokerLaws.SetDoajStatusThenGet | articlemeta/controller.py:469-475 | after `set_doaj_status`, `get_article` by code alone finds the same article as before with only `sent_doaj` changed |
| BrokerLaws.AddJournalThenGet | articlemeta/controller.py:218-233 | after `add_journal`, `get_journal` on its collection and either ISSN lists a record carrying every field of the new journal |
| BrokerLaws.UpdateKeepsCreatedAt | articlemeta/controller.py:453-465 | when the raw record has no `created_at`, `update_article` keeps a stored article's `created_at` and gives a new article none |
| BrokerLaws.AddArticleTwice | articlemeta/controller.py:434-448 | adding the same article twice on one day leaves the articles as one add would, whatever shards were drawn, and logs two events |
| BrokerLaws.StampedShard | articlemeta/controller.py:436-441 | the shard drawn decides neither whether `add_article` raises nor which fields it stores |
| BrokerLaws.DeleteArticleThenGone | articlemeta/controller.py:421-431 | after `delete_article` with a collection, `exists_article` on the same code and collection is false |
| BrokerLaws.DeleteArticleWithoutCollection | articlemeta/controller.py:424-429 | `delete_article` without a collection spares every article that has one |
| BrokerLaws.DeleteMissingArticle | articlemeta/controller.py:421-431 | `delete_article` on a key no stored article has leaves the articles as they were |
| BrokerLaws.DeleteMissingJournal | articlemeta/controller.py:206-216 | `delete_journal` on a key no stored journal has leaves the journals as they were |
| BrokerLaws.DeleteJournalThenGone | articlemeta/controller.py:206-216 | after `delete_journal` with a collection, `get_journal` on that collection and ISSN is empty |
| BrokerLaws.AddJournalKeepsWellFormed | articlemeta/controller.py:218-233 | `add_journal` keeps every journal and article keyed and every history event complete |
| BrokerLaws.DeleteJournalKeepsWellFormed | articlemeta/controller.py:206-216 | `delete_journal` keeps the store well formed |
| BrokerLaws.AddArticleKeepsWellFormed | articlemeta/controller.py:433-450 | a successful `add_article` keeps the store well formed |
| BrokerLaws.UpdateArticleKeepsWellFormed | articlemeta/controller.py:452-467 | `update_article` keeps the store well formed |
| BrokerLaws.DeleteArticleKeepsWellFormed | articlemeta/controller.py:421-431 | `delete_article` keeps the store well formed |
| BrokerLaws.SetDoajStatusKeepsWellFormed | articlemeta/controller.py:469-475 | `set_doaj_status` keeps the store well formed |
| BrokerLaws.RunKeepsWellFormed | articlemeta/controller.py:206-475 | any sequence of broker mutations keeps a well-formed store well formed |
| BrokerLaws.ListingsNeverRaise | articlemeta/controller.py:259-361 | on a store written only through the broker, no identifier listing and no history listing raises `KeyError` |

## Left out

- Connection handling (`get_dbconn`, `_ensure_indexes`, `DataBroker.from_dsn` and its connection cache) is left out. It is I/O against a MongoDB server.
- `identifiers_collection`, `get_collection` and the deprecated `collection` are left out. They are plain reads of a `collections` collection that no modelled operation writes.
- `get_articles` is left out. It is a generator over the same query as `get_article`.
- The `replace_journal_metadata` option of `get_article` is left out. It reads the nested `title.v400` structure of raw records, which the model keeps opaque.
- The `_id` field, the `{'_id': 0}` projections and `del data['_id']` are not modelled. Documents carry no database id, and an inserted event's id is its position in the log.
- The `if not data` guard of `get_journal` (controller.py line 201) and the `if not journal` / `if not article` guards of `add_journal`, `add_article` and `update_article` (lines 223, 438 and 457) are not modelled as branches. A pymongo cursor is always truthy and a normalised record always has a `code`, so these branches cannot be taken. The `if not data` of `get_article` (line 379) is modelled: `Broker.GetArticle` returns `None` when nothing matches.
- `safe=False` (unacknowledged writes) and the lack of atomicity between a write and its history entry are not modelled. Every write takes effect, and a call is one step.
- The in-place mutation of the caller's `metadata` dictionary is not modelled. The model returns the normalised record as a new value.
- The xylose library, which parses raw records, is not part of this model. Its answers are inputs: publisher id, both ISSNs, collection acronym, document type, publication date, DOI, and the processing date (`None` when reading it raises).
- The `LogHistoryChange` decorator is not part of this model. Its behaviour is assumed as described above.
- The clock and `uuid4` are parameters (`Env`), not modelled.
- Nested dictionaries, numbers and other raw values are not modelled. `None`, strings and lists stand in for every value a raw record holds (such as `title['v400']`), because no modelled query or write reads a raw field's contents: raw fields are only carried through.
- `str(status)` is modelled for a boolean status only, giving `'True'` or `'False'`.
- MongoDB range queries are modelled on string fields only. MongoDB's cross-type ordering is left out because the broker compares dates stored as ISO strings.
- `docker/generate_production_ini.py` is left out. It is deployment configuration.
- Store.SortBy: the model's sort keeps documents with equal keys in their stored order (`Store.SortKeepsSorted` states it for sorted input), while MongoDB leaves the order of equal dates open. `History.HistoryChangesWindow` therefore states the page for some ascending order, not a particular one.
- Normalize.IssnList: Python's `list(set(...))` order is open. The model fixes the electronic ISSN first; the contract states the content, not the order.

=== FILE: broker.dfy ===
/** The `DataBroker` mutations and point reads over the store. Each mutation
    wrapped by `LogHistoryChange` appends one event to the history of its
    document type after it returns, keyed by the `code` and `collection` of
    what it returned. */
module Broker {
  import opened Wrappers
  import opened Documents
  import opened Store
  import opened Normalize
  import opened Listing
  import opened History
  import PyStr

  /** What a call reads from its surroundings: the wall-clock time stamped on
      history events, today's ISO date and a fresh random shard id. */
  datatype Env = Env(now: string, today: string, shard: string)

  /** The store after a mutation, together with what the method returned. */
  datatype Effect<T> = Effect(db: Db, value: T)

  /** `{'code': code, 'collection': collection}`, the key of journals and articles. */
  function KeyFilter(code: Value, collection: Value): (f: Filter)
    ensures forall d :: Matches(d, f) <==>
      FieldMatches(d, Code, Eq(code)) && FieldMatches(d, Collection, Eq(collection))
  {
    var f := map[Code := Eq(code), Collection := Eq(collection)];
    forall d
      ensures Matches(d, f) <==> FieldMatches(d, Code, Eq(code)) && FieldMatches(d, Collection, Eq(collection))
    {
      MatchesEmpty(d);
      MatchesAdd(d, map[], Code, Eq(code));
      assert map[Code := Eq(code)][Collection := Eq(collection)] == f;
      MatchesAdd(d, map[Code := Eq(code)], Collection, Eq(collection));
    }
    f
  }

  /** A record carrying a code and a collection agrees with its own key, so
      every upsert of it under that key matches the key. */
  lemma KeyAgrees(p: Doc)
    requires Code in p && Collection in p
    ensures Agrees(KeyFilter(p[Code], p[Collection]), p)
  {
  }

  /** `{'code': code}`, narrowed to one collection when one is given. */
  function LookupFilter(code: string, collection: Option<string>): (f: Filter)
    ensures forall d :: Matches(d, f) <==>
      FieldMatches(d, Code, Eq(Str(code))) &&
      (PyStr.Truthy(collection) ==> FieldMatches(d, Collection, Eq(Str(collection.value))))
  {
    if PyStr.Truthy(collection) then
      KeyFilter(Str(code), Str(collection.value))
    else
      var f := map[Code := Eq(Str(code))];
      forall d
        ensures Matches(d, f) <==> FieldMatches(d, Code, Eq(Str(code)))
      {
        MatchesEmpty(d);
        MatchesAdd(d, map[], Code, Eq(Str(code)));
      }
      f
  }

  /** The query of `get_journal`: the collection and the ISSN when given. */
  function JournalQuery(collection: Option<string>, issn: Option<string>): (f: Filter)
    ensures forall d :: Matches(d, f) <==>
      (PyStr.Truthy(collection) ==> FieldMatches(d, Collection, Eq(Str(collection.value)))) &&
      (PyStr.Truthy(issn) ==> FieldMatches(d, Code, Eq(Str(issn.value))))
  {
    var f0: Filter := map[];
    var f1 := if PyStr.Truthy(collection) then f0[Collection := Eq(Str(collection.value))] else f0;
    var f2 := if PyStr.Truthy(issn) then f1[Code := Eq(Str(issn.value))] else f1;
    forall d
      ensures Matches(d, f2) <==>
        (PyStr.Truthy(collection) ==> FieldMatches(d, Collection, Eq(Str(collection.value)))) &&
        (PyStr.Truthy(issn) ==> FieldMatches(d, Code, Eq(Str(issn.value))))
    {
      MatchesEmpty(d);
      if PyStr.Truthy(collection) {
        MatchesAdd(d, f0, Collection, Eq(Str(collection.value)));
      }
      if PyStr.Truthy(issn) {
        MatchesAdd(d, f1, Code, Eq(Str(issn.value)));
      }
    }
    f2
  }

  /** A mutation writes one collection and then logs one event: the event is
      appended to the log of its type and every other collection is as before. */
  lemma WriteThenLog(db: Db, db1: Db, name: Name, documentType: string, code: Value, collection: Value,
                     event: string, now: string)
    requires Tracked(documentType) && name != LogName(documentType)
    requires forall n :: n != name ==> Coll(db1, n) == Coll(db, n)
    ensures var db2 := LogChanges(db1, documentType, code, event, collection, None, now).db;
      && Coll(db2, name) == Coll(db1, name)
      && Coll(db2, LogName(documentType)) == Coll(db, LogName(documentType)) + [EventDoc(code, collection, event, now)]
      && forall n :: n != name && n != LogName(documentType) ==> Coll(db2, n) == Coll(db, n)
  {
  }

  // ----- journals -----

  /** `add_journal`: normalise, upsert on (code, collection), log an "add". */
  function AddJournal(db: Db, metadata: RawDoc, j: ParsedJournal, env: Env): (r: Effect<Doc>)
    ensures r.value == CheckJournalMeta(metadata, j)
    ensures Coll(r.db, Journals) ==
      UpsertInto(Coll(db, Journals), KeyFilter(List(IssnList(j.electronicIssn, j.printIssn)), Str(j.collectionAcronym)), r.value)
    ensures Coll(r.db, LogName("journal")) == Coll(db, LogName("journal")) +
      [EventDoc(List(IssnList(j.electronicIssn, j.printIssn)), Str(j.collectionAcronym), "add", env.now)]
    ensures forall n :: n != Journals && n != LogName("journal") ==> Coll(r.db, n) == Coll(db, n)
  {
    var journal := CheckJournalMeta(metadata, j);
    var key := KeyFilter(journal[Code], journal[Collection]);
    var db1 := Upsert(db, Journals, key, journal);
    WriteThenLog(db, db1, Journals, "journal", journal[Code], journal[Collection], "add", env.now);
    Effect(LogChanges(db1, "journal", journal[Code], "add", journal[Collection], None, env.now).db, journal)
  }

  /** `delete_journal`: remove every journal matching the ISSN and collection
      (a missing collection matches journals without one), log a "delete". */
  function DeleteJournal(db: Db, issn: string, collection: Option<string>, env: Env): (r: Effect<Filter>)
    ensures r.value == KeyFilter(Str(issn), FromOption(collection))
    ensures forall d :: d in Coll(r.db, Journals) <==>
      d in Coll(db, Journals) &&
      !(FieldMatches(d, Code, Eq(Str(issn))) && FieldMatches(d, Collection, Eq(FromOption(collection))))
    ensures |Coll(r.db, Journals)| == |Coll(db, Journals)| - Count(Coll(db, Journals), r.value)
    ensures Coll(r.db, Journals) == Select(Coll(db, Journals), r.value, false)
    ensures Coll(r.db, LogName("journal")) == Coll(db, LogName("journal")) +
      [EventDoc(Str(issn), FromOption(collection), "delete", env.now)]
    ensures forall n :: n != Journals && n != LogName("journal") ==> Coll(r.db, n) == Coll(db, n)
  {
    var key := KeyFilter(Str(issn), FromOption(collection));
    var db1 := Remove(db, Journals, key);
    WriteThenLog(db, db1, Journals, "journal", Str(issn), FromOption(collection), "delete", env.now);
    Effect(LogChanges(db1, "journal", Str(issn), "delete", FromOption(collection), None, env.now).db, key)
  }

  /** `get_journal`: every journal of the collection listing the ISSN, either
      condition dropped when its argument is empty. */
  function GetJournal(db: Db, collection: Option<string>, issn: Option<string>): (r: seq<Doc>)
    ensures forall d :: d in r <==>
      && d in Coll(db, Journals)
      && (PyStr.Truthy(collection) ==> FieldMatches(d, Collection, Eq(Str(collection.value))))
      && (PyStr.Truthy(issn) ==> FieldMatches(d, Code, Eq(Str(issn.value))))
    ensures forall d ::
      multiset(r)[d] == if Matches(d, JournalQuery(collection, issn)) then multiset(Coll(db, Journals))[d] else 0
    ensures |r| == Count(Coll(db, Journals), JournalQuery(collection, issn))
  {
    SelectMultiplicity(Coll(db, Journals), JournalQuery(collection, issn), true);
    Find(Coll(db, Journals), JournalQuery(collection, issn))
  }

  // ----- articles -----

  /** `article['created_at'] = article['processing_date']`: a normalised
      article dated by its processing date, or `KeyError` when it has none. */
  function Stamp(n: Doc): (r: Result<Doc>)
    ensures r.Failure? <==> ProcessingDate !in n
    ensures match r
      case Failure(e) => e == KeyError("processing_date")
      case Success(stored) =>
        && stored.Keys == n.Keys + {CreatedAt}
        && (forall k :: k in n && k != CreatedAt ==> stored[k] == n[k])
        && stored[CreatedAt] == n[ProcessingDate]
  {
    if ProcessingDate !in n then Failure(KeyError(FieldName(ProcessingDate)))
    else Success(n[CreatedAt := n[ProcessingDate]])
  }

  /** The record `add_article` stores: the normalised record stamped with its
      creation date. It fails exactly when neither the source nor the
      publication date gives a processing date and the raw record has none. */
  function StampedArticle(metadata: RawDoc, a: ParsedArticle, env: Env): (r: Result<Doc>)
    ensures r.Failure? <==> ProcessingDateRule(a, env.today).None? && ProcessingDate !in metadata
    ensures match r
      case Failure(e) => e == KeyError("processing_date")
      case Success(stored) =>
        && CreatedAt in stored && ProcessingDate in stored && stored[CreatedAt] == stored[ProcessingDate]
        && Code in stored && stored[Code] == Str(a.publisherId)
        && Collection in stored && stored[Collection] == Str(a.collectionAcronym)
  {
    Stamp(CheckArticleMeta(metadata, a, env.today, env.shard))
  }

  /** `add_article`: store the stamped record by upsert on (code, collection)
      and log an "add"; a `KeyError` leaves the store untouched. */
  function AddArticle(db: Db, metadata: RawDoc, a: ParsedArticle, env: Env): (r: Result<Effect<Doc>>)
    ensures r.Failure? <==> StampedArticle(metadata, a, env).Failure?
    ensures r.Failure? ==> r.error == KeyError("processing_date")
    ensures r.Success? ==> StampedArticle(metadata, a, env) == Success(r.value.value)
    ensures r.Success? ==>
      && Code in r.value.value && r.value.value[Code] == Str(a.publisherId)
      && Collection in r.value.value && r.value.value[Collection] == Str(a.collectionAcronym)
    ensures r.Success? ==>
      Coll(r.value.db, Articles) ==
        UpsertInto(Coll(db, Articles), KeyFilter(Str(a.publisherId), Str(a.collectionAcronym)), r.value.value)
    ensures r.Success? ==>
      Coll(r.value.db, LogName("article")) ==
        Coll(db, LogName("article")) + [EventDoc(Str(a.publisherId), Str(a.collectionAcronym), "add", env.now)]
    ensures r.Success? ==>
      forall n :: n != Articles && n != LogName("article") ==> Coll(r.value.db, n) == Coll(db, n)
  {
    var stored :- StampedArticle(metadata, a, env);
    var key := KeyFilter(stored[Code], stored[Collection]);
    var db1 := Upsert(db, Articles, key, stored);
    WriteThenLog(db, db1, Articles, "article", stored[Code], stored[Collection], "add", env.now);
    Success(Effect(LogChanges(db1, "article", stored[Code], "add", stored[Collection], None, env.now).db, stored))
  }

  /** `update_article`: as `add_article`, but adds no `created_at` of its own
      and cannot fail. */
  function UpdateArticle(db: Db, metadata: RawDoc, a: ParsedArticle, env: Env): (r: Effect<Doc>)
    ensures r.value == CheckArticleMeta(metadata, a, env.today, env.shard)
    ensures Coll(r.db, Articles) ==
      UpsertInto(Coll(db, Articles), KeyFilter(Str(a.publisherId), Str(a.collectionAcronym)), r.value)
    ensures Coll(r.db, LogName("article")) == Coll(db, LogName("article")) +
      [EventDoc(Str(a.publisherId), Str(a.collectionAcronym), "update", env.now)]
    ensures forall n :: n != Articles && n != LogName("article") ==> Coll(r.db, n) == Coll(db, n)
  {
    var article := CheckArticleMeta(metadata, a, env.today, env.shard);
    var key := KeyFilter(article[Code], article[Collection]);
    var db1 := Upsert(db, Articles, key, article);
    WriteThenLog(db, db1, Articles, "article", article[Code], article[Collection], "update", env.now);
    Effect(LogChanges(db1, "article", article[Code], "update", article[Collection], None, env.now).db, article)
  }

  /** `delete_article`: remove every article matching the code and collection
      (a missing collection matches articles without one), log a "delete". */
  function DeleteArticle(db: Db, code: string, collection: Option<string>, env: Env): (r: Effect<Filter>)
    ensures r.value == KeyFilter(Str(code), FromOption(collection))
    ensures forall d :: d in Coll(r.db, Articles) <==>
      d in Coll(db, Articles) &&
      !(FieldMatches(d, Code, Eq(Str(code))) && FieldMatches(d, Collection, Eq(FromOption(collection))))
    ensures |Coll(r.db, Articles)| == |Coll(db, Articles)| - Count(Coll(db, Articles), r.value)
    ensures Coll(r.db, Articles) == Select(Coll(db, Articles), r.value, false)
    ensures Coll(r.db, LogName("article")) == Coll(db, LogName("article")) +
      [EventDoc(Str(code), FromOption(collection), "delete", env.now)]
    ensures forall n :: n != Articles && n != LogName("article") ==> Coll(r.db, n) == Coll(db, n)
  {
    var key := KeyFilter(Str(code), FromOption(collection));
    var db1 := Remove(db, Articles, key);
    WriteThenLog(db, db1, Articles, "article", Str(code), FromOption(collection), "delete", env.now);
    Effect(LogChanges(db1, "article", Str(code), "delete", FromOption(collection), None, env.now).db, key)
  }

  /** Python's `str` of a boolean. */
  function StatusText(status: bool): (r: string) {
    if status then "True" else "False"
  }

  /** `set_doaj_status`: set `sent_doaj` on the first article with the code, in
      any collection; nothing else changes and no history is written. */
  function SetDoajStatus(db: Db, code: string, status: bool): (r: Db)
    ensures forall n :: n != Articles ==> Coll(r, n) == Coll(db, n)
    ensures |Coll(r, Articles)| == |Coll(db, Articles)|
    ensures (forall d :: d in Coll(db, Articles) ==> !FieldMatches(d, Code, Eq(Str(code)))) ==> r == db
    ensures var i := FirstMatch(Coll(db, Articles), LookupFilter(code, None));
      && (forall j :: 0 <= j < |Coll(db, Articles)| && j != i ==> Coll(r, Articles)[j] == Coll(db, Articles)[j])
      && (i < |Coll(db, Articles)| ==>
            && FieldMatches(Coll(db, Articles)[i], Code, Eq(Str(code)))
            && Coll(r, Articles)[i] == Coll(db, Articles)[i][SentDoaj := Str(StatusText(status))])
  {
    UpdateFirst(db, Articles, LookupFilter(code, None), map[SentDoaj := Str(StatusText(status))])
  }

  /** `get_article`: the first article, in stored order, with the code and,
      when one is given, the collection. */
  function GetArticle(db: Db, code: string, collection: Option<string>): (r: Option<Doc>)
    ensures r.Some? <==> exists d :: d in Coll(db, Articles) && Matches(d, LookupFilter(code, collection))
    ensures r.Some? ==>
      && FieldMatches(r.value, Code, Eq(Str(code)))
      && (PyStr.Truthy(collection) ==> FieldMatches(r.value, Collection, Eq(Str(collection.value))))
    ensures r.Some? ==> exists i ::
      && 0 <= i < |Coll(db, Articles)|
      && Coll(db, Articles)[i] == r.value
      && forall j :: 0 <= j < i ==> !Matches(Coll(db, Articles)[j], LookupFilter(code, collection))
  {
    FindOne(Coll(db, Articles), LookupFilter(code, collection))
  }

  /** `exists_article`: whether some article has the code and, when one is
      given, the collection. */
  function ExistsArticle(db: Db, code: string, collection: Option<string>): (b: bool)
    ensures b <==> exists d ::
      && d in Coll(db, Articles)
      && FieldMatches(d, Code, Eq(Str(code)))
      && (PyStr.Truthy(collection) ==> FieldMatches(d, Collection, Eq(Str(collection.value))))
    ensures b <==> GetArticle(db, code, collection).Some?
  {
    Count(Coll(db, Articles), LookupFilter(code, collection)) >= 1
  }
}

=== FILE: broker_laws.dfy ===
/** What the broker's operations promise about one another: a read after a
    write sees it, repeated writes converge, deletes are seen by the reads,
    and a store built only through the broker can always be listed. */
module BrokerLaws {
  import opened Wrappers
  import opened Documents
  import opened Store
  import opened Normalize
  import opened Listing
  import opened History
  import opened Broker
  import PyStr

  // ----- reads see writes -----

  /** `get_article` is `find_one` on the lookup filter. */
  lemma GetArticleIsFindOne(db: Db, code: string, collection: Option<string>)
    ensures GetArticle(db, code, collection) == FindOne(Coll(db, Articles), LookupFilter(code, collection))
  {
  }

  /** After `add_article`, `get_article` on its code and collection returns the
      record stored before, with every field of the new record set over it. */
  lemma AddArticleThenGet(db: Db, metadata: RawDoc, a: ParsedArticle, env: Env)
    requires ProcessingDateRule(a, env.today).Some? || ProcessingDate in metadata
    requires a.collectionAcronym != ""
    ensures var r := AddArticle(db, metadata, a, env).value;
      var key := KeyFilter(Str(a.publisherId), Str(a.collectionAcronym));
      GetArticle(r.db, a.publisherId, Some(a.collectionAcronym)) ==
        Some(Merge(GetArticle(db, a.publisherId, Some(a.collectionAcronym)).GetOr(Seed(key)), r.value))
    ensures var r := AddArticle(db, metadata, a, env).value;
      var got := GetArticle(r.db, a.publisherId, Some(a.collectionAcronym));
      && got.Some?
      && Carries(got.value, r.value)
      && got.value[CreatedAt] == got.value[ProcessingDate]
  {
    var r := AddArticle(db, metadata, a, env).value;
    var key := KeyFilter(Str(a.publisherId), Str(a.collectionAcronym));
    LookupIsKey(a.publisherId, a.collectionAcronym);
    GetArticleIsFindOne(db, a.publisherId, Some(a.collectionAcronym));
    GetArticleIsFindOne(r.db, a.publisherId, Some(a.collectionAcronym));
    KeyAgrees(r.value);
    UpsertFinds(Coll(db, Articles), key, r.value);
    UpsertStores(Coll(db, Articles), key, r.value);
  }

  lemma LookupIsKey(code: string, collection: string)
    requires collection != ""
    ensures LookupFilter(code, Some(collection)) == KeyFilter(Str(code), Str(collection))
  {
  }

  /** After `add_journal`, `get_journal` on its collection and either of its
      ISSNs lists a record carrying every field of the new one. */
  lemma AddJournalThenGet(db: Db, metadata: RawDoc, j: ParsedJournal, env: Env, issn: Option<string>)
    requires issn == j.electronicIssn || issn == j.printIssn
    requires PyStr.Truthy(issn) && j.collectionAcronym != ""
    ensures var r := AddJournal(db, metadata, j, env);
      exists d :: d in GetJournal(r.db, Some(j.collectionAcronym), issn) &&
        Carries(d, r.value)
  {
    var r := AddJournal(db, metadata, j, env);
    var issns := List(IssnList(j.electronicIssn, j.printIssn));
    var key := KeyFilter(issns, Str(j.collectionAcronym));
    KeyAgrees(r.value);
    UpsertStores(Coll(db, Journals), key, r.value);
    var d := Merge(FindOne(Coll(db, Journals), key).GetOr(Seed(key)), r.value);
    assert d in GetJournal(r.db, Some(j.collectionAcronym), issn) by {
      assert d in Coll(r.db, Journals);
      assert FieldMatches(d, Code, Eq(Str(issn.value))) by {
        assert d[Code] == issns;
        assert Str(issn.value) in issns.items;
      }
      assert FieldMatches(d, Collection, Eq(Str(j.collectionAcronym))) by {
        assert d[Collection] == Str(j.collectionAcronym);
      }
    }
  }

  /** After `update_article`, `get_article` on its code and collection returns
      the record stored before, with every field of the normalised record set
      over it. */
  lemma UpdateArticleThenGet(db: Db, metadata: RawDoc, a: ParsedArticle, env: Env)
    requires a.collectionAcronym != ""
    ensures var r := UpdateArticle(db, metadata, a, env);
      var key := KeyFilter(Str(a.publisherId), Str(a.collectionAcronym));
      GetArticle(r.db, a.publisherId, Some(a.collectionAcronym)) ==
        Some(Merge(GetArticle(db, a.publisherId, Some(a.collectionAcronym)).GetOr(Seed(key)), r.value))
  {
    var r := UpdateArticle(db, metadata, a, env);
    LookupIsKey(a.publisherId, a.collectionAcronym);
    GetArticleIsFindOne(db, a.publisherId, Some(a.collectionAcronym));
    GetArticleIsFindOne(r.db, a.publisherId, Some(a.collectionAcronym));
    KeyAgrees(r.value);
    UpsertFinds(Coll(db, Articles), KeyFilter(Str(a.publisherId), Str(a.collectionAcronym)), r.value);
  }

  /** After `set_doaj_status`, `get_article` on the code alone finds the same
      article as before, now with `sent_doaj` set to the status text. */
  lemma SetDoajStatusThenGet(db: Db, code: string, status: bool)
    ensures var before := GetArticle(db, code, None);
      var after := GetArticle(SetDoajStatus(db, code, status), code, None);
      && (after.Some? <==> before.Some?)
      && (before.Some? ==> after.value == before.value[SentDoaj := Str(StatusText(status))])
  {
    var c := Coll(db, Articles);
    var f := LookupFilter(code, None);
    var i := FirstMatch(c, f);
    var c' := Coll(SetDoajStatus(db, code, status), Articles);
    if i < |c| {
      assert c'[i] == c[i][SentDoaj := Str(StatusText(status))];
      assert Matches(c'[i], f) by {
        assert c'[i][Code] == c[i][Code];
      }
      FirstMatchAt(c', f, i);
    }
  }

  /** `update_article` never adds `created_at` of its own: without one in
      the raw record, the stored article keeps the creation date it had, and
      a new one has none. */
  lemma UpdateKeepsCreatedAt(db: Db, metadata: RawDoc, a: ParsedArticle, env: Env)
    requires CreatedAt !in metadata
    ensures var key := KeyFilter(Str(a.publisherId), Str(a.collectionAcronym));
      var before := FindOne(Coll(db, Articles), key);
      var after := FindOne(Coll(UpdateArticle(db, metadata, a, env).db, Articles), key);
      && after.Some?
      && (CreatedAt in after.value <==> before.Some? && CreatedAt in before.value)
      && (CreatedAt in after.value ==> after.value[CreatedAt] == before.value[CreatedAt])
  {
    var r := UpdateArticle(db, metadata, a, env);
    var key := KeyFilter(Str(a.publisherId), Str(a.collectionAcronym));
    CreatedAtUntouched(metadata, a, env.today, env.shard);
    assert CreatedAt !in key;
    KeyAgrees(r.value);
    assert Coll(r.db, Articles) == UpsertInto(Coll(db, Articles), key, r.value);
    UpsertLeavesUnwritten(Coll(db, Articles), key, r.value, CreatedAt);
  }

  // ----- repeated writes -----

  /** Adding the same article twice on the same day leaves the articles as one
      add would, whatever shard ids were drawn; the history records both. */
  lemma AddArticleTwice(db: Db, metadata: RawDoc, a: ParsedArticle, env1: Env, env2: Env)
    requires env1.today == env2.today
    requires ProcessingDateRule(a, env1.today).Some? || ProcessingDate in metadata
    ensures var db1 := AddArticle(db, metadata, a, env1).value.db;
      && AddArticle(db1, metadata, a, env2).Success?
      && AddArticle(db, metadata, a, env2).Success?
      && Coll(AddArticle(db1, metadata, a, env2).value.db, Articles) ==
           Coll(AddArticle(db, metadata, a, env2).value.db, Articles)
      && |Coll(AddArticle(db1, metadata, a, env2).value.db, LogName("article"))| ==
           |Coll(db, LogName("article"))| + 2
  {
    var key := KeyFilter(Str(a.publisherId), Str(a.collectionAcronym));
    var p1 := AddArticle(db, metadata, a, env1).value.value;
    StampedShard(metadata, a, env1, env2);
    var p2 := StampedArticle(metadata, a, env2).value;
    KeyAgrees(p1);
    UpsertTwice(Coll(db, Articles), key, p1, p2);
  }

  /** The shard id drawn does not decide whether `add_article` raises, nor
      which fields it writes. */
  lemma StampedShard(metadata: RawDoc, a: ParsedArticle, env1: Env, env2: Env)
    requires env1.today == env2.today
    ensures StampedArticle(metadata, a, env1).Success? <==> StampedArticle(metadata, a, env2).Success?
    ensures StampedArticle(metadata, a, env1).Success? ==>
      StampedArticle(metadata, a, env1).value.Keys == StampedArticle(metadata, a, env2).value.Keys
  {
    ShardIsTheOnlyDifference(metadata, a, env1.today, env1.shard, env2.shard);
  }

  // ----- deletes -----

  /** After `delete_article` with a collection, the article no longer exists. */
  lemma DeleteArticleThenGone(db: Db, code: string, collection: Option<string>, env: Env)
    requires PyStr.Truthy(collection)
    ensures !ExistsArticle(DeleteArticle(db, code, collection, env).db, code, collection)
  {
  }

  /** `delete_article` without a collection removes only articles stored
      without one: any article with a collection survives it. */
  lemma DeleteArticleWithoutCollection(db: Db, code: string, env: Env, d: Doc)
    requires d in Coll(db, Articles)
    requires Collection in d && d[Collection].Str?
    ensures d in Coll(DeleteArticle(db, code, None, env).db, Articles)
  {
  }

  /** `delete_article` on a key no stored article has leaves the articles as
      they were; only the log grows. */
  lemma DeleteMissingArticle(db: Db, code: string, collection: Option<string>, env: Env)
    requires forall d :: d in Coll(db, Articles) ==> !Matches(d, KeyFilter(Str(code), FromOption(collection)))
    ensures Coll(DeleteArticle(db, code, collection, env).db, Articles) == Coll(db, Articles)
  {
    RemoveNothing(db, Articles, KeyFilter(Str(code), FromOption(collection)));
  }

  /** `delete_journal` on a key no stored journal has leaves the journals as
      they were; only the log grows. */
  lemma DeleteMissingJournal(db: Db, issn: string, collection: Option<string>, env: Env)
    requires forall d :: d in Coll(db, Journals) ==> !Matches(d, KeyFilter(Str(issn), FromOption(collection)))
    ensures Coll(DeleteJournal(db, issn, collection, env).db, Journals) == Coll(db, Journals)
  {
    RemoveNothing(db, Journals, KeyFilter(Str(issn), FromOption(collection)));
  }

  /** After `delete_journal` with a collection and an ISSN, `get_journal` on
      both finds nothing. */
  lemma DeleteJournalThenGone(db: Db, issn: string, collection: Option<string>, env: Env)
    requires PyStr.Truthy(collection) && issn != ""
    ensures GetJournal(DeleteJournal(db, issn, collection, env).db, collection, Some(issn)) == []
  {
    NonEmptyHasHead(GetJournal(DeleteJournal(db, issn, collection, env).db, collection, Some(issn)));
  }

  lemma NonEmptyHasHead<T>(xs: seq<T>)
    ensures |xs| > 0 ==> xs[0] in xs
  {
  }

  // ----- a store written only by the broker can always be listed -----

  /** Every journal and article carries its key, and every history event
      carries the fields `historychanges` projects. */
  ghost predicate WellFormed(db: Db) {
    && HasFields(Coll(db, Journals), JournalFields)
    && HasFields(Coll(db, Articles), [Code, Collection])
    && WellFormedLog(db, "journal")
    && WellFormedLog(db, "article")
  }

  /** One call of a mutating broker method. */
  datatype Call =
    | AddJournalCall(metadata: RawDoc, journal: ParsedJournal)
    | DeleteJournalCall(issn: string, collection: Option<string>)
    | AddArticleCall(metadata: RawDoc, article: ParsedArticle)
    | UpdateArticleCall(metadata: RawDoc, article: ParsedArticle)
    | DeleteArticleCall(code: string, collection: Option<string>)
    | SetDoajStatusCall(code: string, status: bool)

  /** The store after a call; a call that raises leaves it as it was. */
  function Apply(db: Db, call: Call, env: Env): (r: Db) {
    match call
    case AddJournalCall(m, j) => AddJournal(db, m, j, env).db
    case DeleteJournalCall(issn, c) => DeleteJournal(db, issn, c, env).db
    case AddArticleCall(m, a) =>
      (match AddArticle(db, m, a, env)
       case Success(e) => e.db
       case Failure(_) => db)
    case UpdateArticleCall(m, a) => UpdateArticle(db, m, a, env).db
    case DeleteArticleCall(code, c) => DeleteArticle(db, code, c, env).db
    case SetDoajStatusCall(code, status) => SetDoajStatus(db, code, status)
  }

  /** The store after a sequence of calls, each with its own environment. */
  function Run(db: Db, calls: seq<(Call, Env)>): (r: Db)
    decreases |calls|
  {
    if |calls| == 0 then db else Run(Apply(db, calls[0].0, calls[0].1), calls[1..])
  }

  lemma AppendKeepsFields(c: seq<Doc>, d: Doc, fields: seq<Field>)
    requires HasFields(c, fields)
    requires forall k :: k in fields ==> k in d
    ensures HasFields(c + [d], fields)
  {
  }

  lemma UpsertKeepsKeys(c: seq<Doc>, f: Filter, patch: Doc)
    requires HasFields(c, [Code, Collection])
    requires Code in patch && Collection in patch
    ensures HasFields(UpsertInto(c, f, patch), [Code, Collection])
  {
  }

  lemma UpdateKeepsFields(db: Db, name: Name, f: Filter, patch: Doc, fields: seq<Field>)
    requires HasFields(Coll(db, name), fields)
    ensures HasFields(Coll(UpdateFirst(db, name, f, patch), name), fields)
  {
    var c := Coll(db, name);
    var c' := Coll(UpdateFirst(db, name, f, patch), name);
    var m := FirstMatch(c, f);
    forall d, i | d in c' && 0 <= i < |fields|
      ensures fields[i] in d
    {
      var j :| 0 <= j < |c'| && c'[j] == d;
      assert c[j] in c;
      if j == m {
        assert d == Merge(c[j], patch);
      }
    }
  }

  /** A mutation that writes one collection of a tracked type, keeps its
      records keyed and appends one event to that type's log keeps the
      store well formed. */
  lemma StepKeepsWellFormed(db: Db, db': Db, name: Name, t: string, e: Doc)
    requires WellFormed(db)
    requires (name == Journals && t == "journal") || (name == Articles && t == "article")
    requires HasFields(Coll(db', name), [Code, Collection])
    requires Coll(db', LogName(t)) == Coll(db, LogName(t)) + [e]
    requires e.Keys == {Code, Collection, Event, Date}
    requires forall n :: n != name && n != LogName(t) ==> Coll(db', n) == Coll(db, n)
    ensures WellFormed(db')
  {
    AppendKeepsFields(Coll(db, LogName(t)), e, HistoryFields);
  }

  lemma AddJournalKeepsWellFormed(db: Db, metadata: RawDoc, j: ParsedJournal, env: Env)
    requires WellFormed(db)
    ensures WellFormed(AddJournal(db, metadata, j, env).db)
  {
    var r := AddJournal(db, metadata, j, env);
    var issns := List(IssnList(j.electronicIssn, j.printIssn));
    var key := KeyFilter(issns, Str(j.collectionAcronym));
    UpsertKeepsKeys(Coll(db, Journals), key, r.value);
    StepKeepsWellFormed(db, r.db, Journals, "journal", EventDoc(issns, Str(j.collectionAcronym), "add", env.now));
  }

  lemma DeleteJournalKeepsWellFormed(db: Db, issn: string, collection: Option<string>, env: Env)
    requires WellFormed(db)
    ensures WellFormed(DeleteJournal(db, issn, collection, env).db)
  {
    var r := DeleteJournal(db, issn, collection, env);
    StepKeepsWellFormed(db, r.db, Journals, "journal", EventDoc(Str(issn), FromOption(collection), "delete", env.now));
  }

  lemma AddArticleKeepsWellFormed(db: Db, metadata: RawDoc, a: ParsedArticle, env: Env)
    requires WellFormed(db)
    requires ProcessingDateRule(a, env.today).Some? || ProcessingDate in metadata
    ensures WellFormed(AddArticle(db, metadata, a, env).value.db)
  {
    var r := AddArticle(db, metadata, a, env).value;
    var key := KeyFilter(Str(a.publisherId), Str(a.collectionAcronym));
    UpsertKeepsKeys(Coll(db, Articles), key, r.value);
    StepKeepsWellFormed(db, r.db, Articles, "article",
      EventDoc(Str(a.publisherId), Str(a.collectionAcronym), "add", env.now));
  }

  lemma UpdateArticleKeepsWellFormed(db: Db, metadata: RawDoc, a: ParsedArticle, env: Env)
    requires WellFormed(db)
    ensures WellFormed(UpdateArticle(db, metadata, a, env).db)
  {
    var r := UpdateArticle(db, metadata, a, env);
    var key := KeyFilter(Str(a.publisherId), Str(a.collectionAcronym));
    UpsertKeepsKeys(Coll(db, Articles), key, r.value);
    StepKeepsWellFormed(db, r.db, Articles, "article",
      EventDoc(Str(a.publisherId), Str(a.collectionAcronym), "update", env.now));
  }

  lemma DeleteArticleKeepsWellFormed(db: Db, code: string, collection: Option<string>, env: Env)
    requires WellFormed(db)
    ensures WellFormed(DeleteArticle(db, code, collection, env).db)
  {
    var r := DeleteArticle(db, code, collection, env);
    StepKeepsWellFormed(db, r.db, Articles, "article", EventDoc(Str(code), FromOption(collection), "delete", env.now));
  }

  lemma SetDoajStatusKeepsWellFormed(db: Db, code: string, status: bool)
    requires WellFormed(db)
    ensures WellFormed(SetDoajStatus(db, code, status))
  {
    UpdateKeepsFields(db, Articles, LookupFilter(code, None), map[SentDoaj := Str(StatusText(status))], [Code, Collection]);
  }

  lemma ApplyKeepsWellFormed(db: Db, call: Call, env: Env)
    requires WellFormed(db)
    ensures WellFormed(Apply(db, call, env))
  {
    match call
    case AddJournalCall(m, j) => AddJournalKeepsWellFormed(db, m, j, env);
    case DeleteJournalCall(issn, c) => DeleteJournalKeepsWellFormed(db, issn, c, env);
    case AddArticleCall(m, a) =>
      if AddArticle(db, m, a, env).Success? {
        AddArticleKeepsWellFormed(db, m, a, env);
      }
    case UpdateArticleCall(m, a) => UpdateArticleKeepsWellFormed(db, m, a, env);
    case DeleteArticleCall(code, c) => DeleteArticleKeepsWellFormed(db, code, c, env);
    case SetDoajStatusCall(code, status) => SetDoajStatusKeepsWellFormed(db, code, status);
  }

  lemma {:induction false} RunKeepsWellFormed(db: Db, calls: seq<(Call, Env)>)
    requires WellFormed(db)
    ensures WellFormed(Run(db, calls))
    decreases |calls|
  {
    if |calls| > 0 {
      ApplyKeepsWellFormed(db, calls[0].0, calls[0].1);
      RunKeepsWellFormed(Apply(db, calls[0].0, calls[0].1), calls[1..]);
    }
  }

  /** On a store written only through the broker, no listing raises: every
      record the listings project has the fields they read. */
  lemma ListingsNeverRaise(calls: seq<(Call, Env)>, collection: Option<string>, issn: Option<string>,
                           event: Option<string>, code: Option<string>, fromDate: string,
                           untilDate: Option<string>, limit: int, offset: int, now: string, today: string)
    ensures var db := Run(map[], calls);
      && IdentifiersJournal(db, collection, limit, offset).Success?
      && IdentifiersArticle(db, collection, issn, fromDate, untilDate, limit, offset, today).Success?
      && IdentifiersPressRelease(db, collection, issn, fromDate, untilDate, limit, offset, today).Success?
      && HistoryChanges(db, "journal", collection, event, code, fromDate, untilDate, limit, offset, now).Success?
      && HistoryChanges(db, "article", collection, event, code, fromDate, untilDate, limit, offset, now).Success?
  {
    RunKeepsWellFormed(map[], calls);
  }
}

=== FILE: documents.dfy ===
/** Loosely-typed documents as the broker stores them, and the MongoDB query
    language subset the broker uses to select them. */
module Documents {
  import opened Wrappers
  import PyStr

  /** A field value: Python `None`, a string, or a list (such as `code_title`). */
  datatype Value = Null | Str(s: string) | List(items: seq<Value>)

  /** The field names the broker reads or writes, and `Raw(name)` for every
      other field of a raw record. A record's key is written with the named
      constructor when there is one (see `Canonical`). */
  datatype Field =
    | Code | CodeIssue | CodeTitle | Collection | DocumentType | PublicationYear
    | ValidatedScielo | ValidatedWos | SentWos | SentDoaj | Applicable
    | ShardId | Doi | ProcessingDate | CreatedAt | Event | Date
    | Raw(name: string)

  /** The dictionary key a field stands for. */
  function FieldName(f: Field): (r: string) {
    match f
    case Code => "code"
    case CodeIssue => "code_issue"
    case CodeTitle => "code_title"
    case Collection => "collection"
    case DocumentType => "document_type"
    case PublicationYear => "publication_year"
    case ValidatedScielo => "validated_scielo"
    case ValidatedWos => "validated_wos"
    case SentWos => "sent_wos"
    case SentDoaj => "sent_doaj"
    case Applicable => "applicable"
    case ShardId => "_shard_id"
    case Doi => "doi"
    case ProcessingDate => "processing_date"
    case CreatedAt => "created_at"
    case Event => "event"
    case Date => "date"
    case Raw(name) => name
  }

  /** The field a dictionary key denotes: the named field with that name,
      otherwise `Raw(name)`. */
  function FieldOf(name: string): (f: Field)
    ensures FieldName(f) == name
  {
    if name == "code" then Code
    else if name == "code_issue" then CodeIssue
    else if name == "code_title" then CodeTitle
    else if name == "collection" then Collection
    else if name == "document_type" then DocumentType
    else if name == "publication_year" then PublicationYear
    else if name == "validated_scielo" then ValidatedScielo
    else if name == "validated_wos" then ValidatedWos
    else if name == "sent_wos" then SentWos
    else if name == "sent_doaj" then SentDoaj
    else if name == "applicable" then Applicable
    else if name == "_shard_id" then ShardId
    else if name == "doi" then Doi
    else if name == "processing_date" then ProcessingDate
    else if name == "created_at" then CreatedAt
    else if name == "event" then Event
    else if name == "date" then Date
    else Raw(name)
  }

  /** A document: a dictionary from fields to values. */
  type Doc = map<Field, Value>

  /** Every key is written as the field its name denotes, so no two keys
      share a name, as in a Python dictionary. */
  predicate Canonical(d: Doc) {
    forall k {:trigger FieldOf(FieldName(k))} :: k in d ==> FieldOf(FieldName(k)) == k
  }

  /** A raw record as the broker receives it: a dictionary keyed by names. */
  type RawDoc = d: Doc | Canonical(d) witness map[]

  /** In a canonical document a key is determined by its name. */
  lemma CanonicalNamesDistinct(d: Doc, k1: Field, k2: Field)
    requires Canonical(d) && k1 in d && k2 in d
    ensures FieldName(k1) == FieldName(k2) <==> k1 == k2
  {
    assert FieldOf(FieldName(k1)) == k1 && FieldOf(FieldName(k2)) == k2;
  }

  /** A named field is what its own name denotes, so writing it keeps a
      document canonical. */
  lemma NamedFieldIsCanonical(f: Field)
    requires !f.Raw?
    ensures FieldOf(FieldName(f)) == f
  {
  }

  /** A raw record has no `Raw` key spelling a named field's name, so a write
      to the named field replaces the record's own value. */
  lemma NoRawShadow(d: RawDoc, f: Field)
    requires !f.Raw?
    ensures Raw(FieldName(f)) !in d
  {
    if Raw(FieldName(f)) in d {
      assert FieldOf(FieldName(Raw(FieldName(f)))) == Raw(FieldName(f));
      NamedFieldIsCanonical(f);
    }
  }

  /** Writing named fields into a canonical document keeps it canonical. */
  lemma MergeKeepsCanonical(d: Doc, patch: Doc)
    requires Canonical(d)
    requires forall k :: k in patch ==> !k.Raw?
    ensures Canonical(Merge(d, patch))
  {
    forall k | k in Merge(d, patch)
      ensures FieldOf(FieldName(k)) == k
    {
      if k !in d {
        NamedFieldIsCanonical(k);
      }
    }
  }

  /** `None` becomes `Null`, a present string becomes `Str`. */
  function FromOption(o: Option<string>): (v: Value)
    ensures v == Null <==> o.None?
    ensures o.Some? ==> v == Str(o.value)
  {
    match o
    case None => Null
    case Some(s) => Str(s)
  }

  ghost predicate NoDuplicates<T>(xs: seq<T>) {
    forall i, j :: 0 <= i < j < |xs| ==> xs[i] != xs[j]
  }

  /** `list(set(xs))`: the distinct elements of `xs`, each once. Python leaves
      the order unspecified; this model keeps first occurrences in order. */
  function Dedup<T(==, !new)>(xs: seq<T>): (r: seq<T>)
    ensures NoDuplicates(r)
    ensures forall x :: x in r <==> x in xs
    ensures |r| <= |xs|
  {
    if |xs| == 0 then []
    else
      var rest := Dedup(xs[..|xs| - 1]);
      var x := xs[|xs| - 1];
      assert forall y :: y in xs <==> y in xs[..|xs| - 1] || y == x;
      if x in rest then rest else rest + [x]
  }

  /** `d` has every field of `p`, with `p`'s value. */
  predicate Carries(d: Doc, p: Doc)
  {
    forall k :: k in p ==> k in d && d[k] == p[k]
  }

  /** MongoDB's `{'$set': patch}`: every field of `patch` is written, every
      other field of `prev` is kept. */
  function Merge(prev: Doc, patch: Doc): (r: Doc)
    ensures r.Keys == prev.Keys + patch.Keys
    ensures Carries(r, patch)
    ensures forall k :: k in prev && k !in patch ==> r[k] == prev[k]
  {
    prev + patch
  }

  /** A later `$set` that writes every field an earlier one wrote hides it. */
  lemma MergeAbsorbs(prev: Doc, p1: Doc, p2: Doc)
    requires p1.Keys <= p2.Keys
    ensures Merge(Merge(prev, p1), p2) == Merge(prev, p2)
  {
  }

  /** One condition of a query document. */
  datatype Cond =
    /** `{field: v}`: equal to `v`, or an array holding `v`; `None` also matches a missing field. */
    | Eq(v: Value)
    /** `{field: {'$gt' | '$gte': lo, '$lte': hi}}` on a string field. */
    | Range(lo: string, loInclusive: bool, hi: string)

  /** A query document: every listed field must satisfy its condition. */
  type Filter = map<Field, Cond>

  predicate FieldMatches(d: Doc, field: Field, c: Cond) {
    match c
    case Eq(v) =>
      if field in d then d[field] == v || (d[field].List? && v in d[field].items)
      else v == Null
    case Range(lo, inc, hi) =>
      && field in d && d[field].Str?
      && (if inc then PyStr.Le(lo, d[field].s) else PyStr.Lt(lo, d[field].s))
      && PyStr.Le(d[field].s, hi)
  }

  predicate Matches(d: Doc, f: Filter) {
    forall k :: k in f ==> FieldMatches(d, k, f[k])
  }

  lemma MatchesEmpty(d: Doc)
    ensures Matches(d, map[])
  {
  }

  /** Adding one condition to a filter conjoins it with the filter's others. */
  lemma MatchesAdd(d: Doc, f: Filter, k: Field, c: Cond)
    requires k !in f
    ensures Matches(d, f[k := c]) <==> Matches(d, f) && FieldMatches(d, k, c)
  {
    if Matches(d, f[k := c]) {
      assert FieldMatches(d, k, f[k := c][k]);
      forall k' | k' in f
        ensures FieldMatches(d, k', f[k'])
      {
        assert f[k := c][k'] == f[k'];
      }
    }
  }

  /** `{f: d[f] for f in fields}`, raising `KeyError` for the first missing field. */
  function Pick(d: Doc, fields: seq<Field>): (r: Result<Doc>)
    ensures r.Success? <==> forall i :: 0 <= i < |fields| ==> fields[i] in d
    ensures r.Success? ==> r.value.Keys == set i | 0 <= i < |fields| :: fields[i]
    ensures r.Success? ==> forall k :: k in r.value ==> k in d && r.value[k] == d[k]
    ensures r.Failure? ==> exists i :: 0 <= i < |fields| && fields[i] !in d && r.error == KeyError(FieldName(fields[i]))
  {
    if |fields| == 0 then Success(map[])
    else if fields[0] !in d then Failure(KeyError(FieldName(fields[0])))
    else
      var rest :- Pick(d, fields[1..]);
      assert forall i :: 1 <= i < |fields| ==> fields[i] == fields[1..][i - 1];
      assert (set i | 0 <= i < |fields| :: fields[i]) == {fields[0]} + (set i | 0 <= i < |fields[1..]| :: fields[1..][i]);
      Success(rest[fields[0] := d[fields[0]]])
  }

  /** The list comprehension `[{f: i[f] for f in fields} for i in docs]`. */
  function PickAll(docs: seq<Doc>, fields: seq<Field>): (r: Result<seq<Doc>>)
    ensures r.Success? <==> forall j, i :: 0 <= j < |docs| && 0 <= i < |fields| ==> fields[i] in docs[j]
    ensures r.Success? ==> |r.value| == |docs|
    ensures r.Success? ==> forall j :: 0 <= j < |docs| ==> Pick(docs[j], fields) == Success(r.value[j])
  {
    if |docs| == 0 then Success([])
    else
      var first :- Pick(docs[0], fields);
      var rest :- PickAll(docs[1..], fields);
      assert forall j :: 1 <= j < |docs| ==> docs[j] == docs[1..][j - 1];
      Success([first] + rest)
  }
}

=== FILE: history.dfy ===
/** The change history: `_log_changes`, which appends one event to the log of
    a document type, and `historychanges`, which lists a log's events by date. */
module History {
  import opened Wrappers
  import opened Documents
  import opened Store
  import opened Listing
  import PyStr

  /** The collection holding the history of a document type. */
  function LogName(documentType: string): (r: Name) {
    HistoryOf(documentType)
  }

  /** The document types that have a history. */
  predicate Tracked(documentType: string) {
    documentType == "article" || documentType == "journal"
  }

  /** The fields of a history event, in the order `historychanges` reads them. */
  const HistoryFields: seq<Field> := [Date, Code, Collection, Event]

  /** `{'code': code, 'collection': collection, 'event': event, 'date': date}` */
  function EventDoc(code: Value, collection: Value, event: string, date: string): (d: Doc)
    ensures d.Keys == {Code, Collection, Event, Date}
    ensures d[Code] == code && d[Collection] == collection && d[Event] == Str(event) && d[Date] == Str(date)
  {
    map[Code := code, Collection := collection, Event := Str(event), Date := Str(date)]
  }

  /** The database after `_log_changes`, and the id of the new event, if any. */
  datatype Logged = Logged(db: Db, id: Option<nat>)

  /** `_log_changes`: for an article or a journal, appends exactly one event
      to that type's log, dated `date` or else `now`; for any other type,
      records nothing and returns `None`. */
  function LogChanges(db: Db, documentType: string, code: Value, event: string, collection: Value,
                      date: Option<string>, now: string): (r: Logged)
    ensures Tracked(documentType) ==>
      Coll(r.db, LogName(documentType)) == Coll(db, LogName(documentType)) + [EventDoc(code, collection, event, PyStr.OrElse(date, now))]
    ensures Tracked(documentType) ==>
      r.id.Some? && r.id.value < |Coll(r.db, LogName(documentType))| &&
      Coll(r.db, LogName(documentType))[r.id.value] == EventDoc(code, collection, event, PyStr.OrElse(date, now))
    ensures !Tracked(documentType) ==> r == Logged(db, None)
    ensures forall n :: n != LogName(documentType) ==> Coll(r.db, n) == Coll(db, n)
  {
    if Tracked(documentType) then
      var (db', id) := Insert(db, LogName(documentType), EventDoc(code, collection, event, PyStr.OrElse(date, now)));
      Logged(db', Some(id))
    else
      Logged(db, None)
  }

  /** The history listing's query: dated after `fromDate` and up to and
      including `untilDate`, plus collection, event and code when given. */
  function HistoryFilter(fromDate: string, untilDate: string, collection: Option<string>,
                         event: Option<string>, code: Option<string>): (f: Filter)
    ensures forall d :: Matches(d, f) <==>
      && FieldMatches(d, Date, Range(fromDate, false, untilDate))
      && (PyStr.Truthy(collection) ==> FieldMatches(d, Collection, Eq(Str(collection.value))))
      && (PyStr.Truthy(event) ==> FieldMatches(d, Event, Eq(Str(event.value))))
      && (PyStr.Truthy(code) ==> FieldMatches(d, Code, Eq(Str(code.value))))
  {
    var f0: Filter := map[Date := Range(fromDate, false, untilDate)];
    var f1 := if PyStr.Truthy(collection) then f0[Collection := Eq(Str(collection.value))] else f0;
    var f2 := if PyStr.Truthy(event) then f1[Event := Eq(Str(event.value))] else f1;
    var f3 := if PyStr.Truthy(code) then f2[Code := Eq(Str(code.value))] else f2;
    forall d: Doc
      ensures Matches(d, f3) <==>
        && FieldMatches(d, Date, Range(fromDate, false, untilDate))
        && (PyStr.Truthy(collection) ==> FieldMatches(d, Collection, Eq(Str(collection.value))))
        && (PyStr.Truthy(event) ==> FieldMatches(d, Event, Eq(Str(event.value))))
        && (PyStr.Truthy(code) ==> FieldMatches(d, Code, Eq(Str(code.value))))
    {
      MatchesEmpty(d);
      MatchesAdd(d, map[], Date, Range(fromDate, false, untilDate));
      assert map[][Date := Range(fromDate, false, untilDate)] == f0;
      if PyStr.Truthy(collection) {
        MatchesAdd(d, f0, Collection, Eq(Str(collection.value)));
      }
      if PyStr.Truthy(event) {
        MatchesAdd(d, f1, Event, Eq(Str(event.value)));
      }
      if PyStr.Truthy(code) {
        MatchesAdd(d, f2, Code, Eq(Str(code.value)));
      }
    }
    f3
  }

  /** Sorting keeps exactly the documents it was given. */
  lemma SortKeepsMembers(xs: seq<Doc>, field: Field)
    ensures forall d :: d in SortBy(xs, field) <==> d in xs
    ensures |SortBy(xs, field)| == |xs|
  {
    var s := SortBy(xs, field);
    assert |multiset(s)| == |multiset(xs)|;
    forall d
      ensures d in s <==> d in xs
    {
      assert d in s <==> d in multiset(s);
      assert d in xs <==> d in multiset(xs);
    }
  }

  /** Projecting documents sorted by one of the fields kept leaves them
      sorted by that field. */
  lemma ProjectionKeepsOrder(docs: seq<Doc>, fields: seq<Field>, key: Field)
    requires key in fields && SortedBy(docs, key) && PickAll(docs, fields).Success?
    ensures SortedBy(PickAll(docs, fields).value, key)
  {
    var objects := PickAll(docs, fields).value;
    var i :| 0 <= i < |fields| && fields[i] == key;
    forall k | 0 <= k < |objects|
      ensures KeyOf(objects[k], key) == KeyOf(docs[k], key)
    {
      PickKeeps(docs[k], fields, objects[k], i);
    }
  }

  /** `historychanges`: a page of the events of a document type's log, in
      ascending date order, dated after `fromDate` and up to `untilDate`
      (now when not given), optionally of one collection, event and code. */
  function HistoryChanges(db: Db, documentType: string, collection: Option<string>, event: Option<string>,
                          code: Option<string>, fromDate: string, untilDate: Option<string>,
                          limit: int, offset: int, now: string): (r: Result<Page>)
    ensures r.Success? ==> r.value.meta.filter == HistoryFilter(fromDate, PyStr.OrElse(untilDate, now), collection, event, code)
    ensures r.Success? ==> r.value.meta.total == Count(Coll(db, LogName(documentType)), r.value.meta.filter)
    ensures r.Success? ==> r.value.meta.limit == ClampLimit(limit) && r.value.meta.offset == ClampOffset(offset)
    ensures r.Success? && r.value.meta.limit > 0 ==> |r.value.objects| <= r.value.meta.limit
    ensures r.Success? ==> SortedBy(r.value.objects, Date)
    ensures r.Success? ==> forall o: Doc :: o in r.value.objects ==>
      FieldMatches(o, Date, Range(fromDate, false, PyStr.OrElse(untilDate, now)))
    ensures r.Success? ==> forall o: Doc :: o in r.value.objects ==>
      exists d :: d in Coll(db, LogName(documentType)) && Matches(d, r.value.meta.filter) && Pick(d, HistoryFields) == Success(o)
    ensures HasFields(Coll(db, LogName(documentType)), HistoryFields) ==> r.Success?
  {
    var log := Coll(db, LogName(documentType));
    var until := PyStr.OrElse(untilDate, now);
    var f := HistoryFilter(fromDate, until, collection, event, code);
    var found := Find(log, f);
    var matches := SortBy(found, Date);
    SortKeepsMembers(found, Date);
    assert HasFields(log, HistoryFields) ==> PageOf(matches, f, limit, offset, HistoryFields).Success? by {
      if HasFields(log, HistoryFields) {
        PageOfSucceeds(matches, f, limit, offset, HistoryFields);
      }
    }
    assert HistoryFields[0] == Date;
    PageKeepsOrder(matches, f, limit, offset, HistoryFields, Date);
    HistoryPageDated(found, f, limit, offset, fromDate, until);
    PageOf(matches, f, limit, offset, HistoryFields)
  }

  /** A page cut from documents sorted by one of the fields it keeps is
      itself sorted by that field. */
  lemma PageKeepsOrder(matches: seq<Doc>, f: Filter, limit: int, offset: int, fields: seq<Field>, key: Field)
    requires key in fields && SortedBy(matches, key)
    ensures var r := PageOf(matches, f, limit, offset, fields);
      r.Success? ==> SortedBy(r.value.objects, key)
  {
    var page := Window(matches, ClampOffset(offset), ClampLimit(limit));
    WindowKeepsSorted(matches, ClampOffset(offset), ClampLimit(limit), key);
    if PickAll(page, fields).Success? {
      ProjectionKeepsOrder(page, fields, key);
    }
  }

  /** A history page, cut from events inside a date window, keeps only events
      inside that window. */
  lemma HistoryPageDated(found: seq<Doc>, f: Filter, limit: int, offset: int, fromDate: string, untilDate: string)
    requires forall d :: d in found ==> FieldMatches(d, Date, Range(fromDate, false, untilDate))
    ensures var r := PageOf(SortBy(found, Date), f, limit, offset, HistoryFields);
      r.Success? ==> forall o: Doc :: o in r.value.objects ==> FieldMatches(o, Date, Range(fromDate, false, untilDate))
  {
    var matches := SortBy(found, Date);
    var r := PageOf(matches, f, limit, offset, HistoryFields);
    if r.Success? {
      assert forall d :: d in matches ==> FieldMatches(d, Date, Range(fromDate, false, untilDate)) by {
        SortKeepsMembers(found, Date);
      }
      HistoryPageInWindow(matches, r.value.objects, fromDate, untilDate);
    }
  }

  /** The page `historychanges` returns is the `skip(offset).limit(limit)`
      window of the matching events in some ascending date order, each event
      cut down to its four fields. MongoDB leaves the order of events with
      equal dates open, hence "some". */
  lemma HistoryChangesWindow(db: Db, documentType: string, collection: Option<string>, event: Option<string>,
                             code: Option<string>, fromDate: string, untilDate: Option<string>,
                             limit: int, offset: int, now: string)
    ensures var r := HistoryChanges(db, documentType, collection, event, code, fromDate, untilDate, limit, offset, now);
      r.Success? ==> exists sorted: seq<Doc> ::
        && SortedBy(sorted, Date)
        && multiset(sorted) == multiset(Find(Coll(db, LogName(documentType)),
                                             HistoryFilter(fromDate, PyStr.OrElse(untilDate, now), collection, event, code)))
        && |r.value.objects| == |Window(sorted, ClampOffset(offset), ClampLimit(limit))|
        && forall k :: 0 <= k < |r.value.objects| ==>
             ClampOffset(offset) + k < |sorted| &&
             Pick(sorted[ClampOffset(offset) + k], HistoryFields) == Success(r.value.objects[k])
  {
    var f := HistoryFilter(fromDate, PyStr.OrElse(untilDate, now), collection, event, code);
    var found := Find(Coll(db, LogName(documentType)), f);
    var matches := SortBy(found, Date);
    var r := HistoryChanges(db, documentType, collection, event, code, fromDate, untilDate, limit, offset, now);
    assert r == PageOf(matches, f, limit, offset, HistoryFields);
    if r.Success? {
      assert SortedBy(matches, Date) && multiset(matches) == multiset(found);
    }
  }

  /** Every event on a page cut from events inside a date window, each
      projected to the four history fields, is inside the window too. */
  lemma HistoryPageInWindow(matches: seq<Doc>, objects: seq<Doc>, fromDate: string, untilDate: string)
    requires forall d :: d in matches ==> FieldMatches(d, Date, Range(fromDate, false, untilDate))
    requires forall o: Doc :: o in objects ==> exists d :: d in matches && Pick(d, HistoryFields) == Success(o)
    ensures forall o: Doc :: o in objects ==> FieldMatches(o, Date, Range(fromDate, false, untilDate))
  {
    forall o: Doc | o in objects
      ensures FieldMatches(o, Date, Range(fromDate, false, untilDate))
    {
      var d :| d in matches && Pick(d, HistoryFields) == Success(o);
      PickKeeps(d, HistoryFields, o, 0);
    }
  }

  /** A well-formed log: every event carries the four fields of `EventDoc`. */
  ghost predicate WellFormedLog(db: Db, documentType: string) {
    HasFields(Coll(db, LogName(documentType)), HistoryFields)
  }

  /** Logging keeps every log well formed, so listing a history never raises. */
  lemma LogKeepsWellFormed(db: Db, documentType: string, code: Value, event: string, collection: Value,
                           date: Option<string>, now: string, t: string)
    requires WellFormedLog(db, t)
    ensures WellFormedLog(LogChanges(db, documentType, code, event, collection, date, now).db, t)
  {
    var db' := LogChanges(db, documentType, code, event, collection, date, now).db;
    if Tracked(documentType) && t == documentType {
      var e := EventDoc(code, collection, event, PyStr.OrElse(date, now));
      forall d, i | d in Coll(db', LogName(t)) && 0 <= i < |HistoryFields|
        ensures HistoryFields[i] in d
      {
        if d != e {
          assert d in Coll(db, LogName(t));
        }
      }
    }
  }

  /** Logging one event changes every history count by exactly that event:
      one more if it falls under the query, none otherwise. */
  lemma LogThenCount(db: Db, documentType: string, code: Value, event: string, collection: Value,
                     date: Option<string>, now: string, f: Filter)
    requires Tracked(documentType)
    ensures Count(Coll(LogChanges(db, documentType, code, event, collection, date, now).db, LogName(documentType)), f)
         == Count(Coll(db, LogName(documentType)), f) +
            (if Matches(EventDoc(code, collection, event, PyStr.OrElse(date, now)), f) then 1 else 0)
  {
    var log := Coll(db, LogName(documentType));
    var e := EventDoc(code, collection, event, PyStr.OrElse(date, now));
    assert Coll(LogChanges(db, documentType, code, event, collection, date, now).db, LogName(documentType)) == log + [e];
    SelectAppend(log, e, f, true);
    assert Count(log + [e], f) == |Select(log + [e], f, true)|;
    assert Count(log, f) == |Select(log, f, true)|;
  }

  /** An event logged with a date inside a history query's window, and with
      no other condition in the query, is counted by that query. */
  lemma LoggedEventIsListed(db: Db, documentType: string, code: Value, event: string, collection: Value,
                            date: string, now: string, fromDate: string, untilDate: string)
    requires Tracked(documentType) && date != ""
    requires PyStr.Lt(fromDate, date) && PyStr.Le(date, untilDate)
    ensures Count(Coll(LogChanges(db, documentType, code, event, collection, Some(date), now).db, LogName(documentType)),
                  HistoryFilter(fromDate, untilDate, None, None, None))
         == Count(Coll(db, LogName(documentType)), HistoryFilter(fromDate, untilDate, None, None, None)) + 1
  {
    var f := HistoryFilter(fromDate, untilDate, None, None, None);
    LogThenCount(db, documentType, code, event, collection, Some(date), now, f);
    assert Matches(EventDoc(code, collection, event, date), f);
  }
}

=== FILE: listing.dfy ===
/** Paginated listings: the offset/limit clamping every listing applies, the
    `{meta, objects}` page it returns, and the identifier listings of
    journals, articles and press releases. */
module Listing {
  import opened Wrappers
  import opened Documents
  import opened Store
  import PyStr

  /** The default and fallback page size. */
  const LIMIT: nat := 1000

  /** A negative offset reads from the start; any other offset is kept. */
  function ClampOffset(offset: int): (r: nat)
    ensures offset >= 0 ==> r == offset
    ensures offset < 0 ==> r == 0
  {
    if offset < 0 then 0 else offset
  }

  /** A negative limit falls back to `LIMIT`; any other limit is kept. */
  function ClampLimit(limit: int): (r: nat)
    ensures limit >= 0 ==> r == limit
    ensures limit < 0 ==> r == LIMIT
  {
    if limit < 0 then LIMIT else limit
  }

  /** `meta`: the clamped paging arguments, the query, and how many documents
      match it in all. */
  datatype Meta = Meta(limit: nat, offset: nat, filter: Filter, total: nat)

  /** `{'meta': meta, 'objects': objects}` */
  datatype Page = Page(meta: Meta, objects: seq<Doc>)

  /** The page of `matches` that `skip(offset).limit(limit)` selects, each
      document cut down to `fields`; `total` counts every match. */
  function PageOf(matches: seq<Doc>, f: Filter, limit: int, offset: int, fields: seq<Field>): (r: Result<Page>)
    ensures r.Success? <==>
      forall k, i :: 0 <= k < |Window(matches, ClampOffset(offset), ClampLimit(limit))| && 0 <= i < |fields| ==>
        fields[i] in Window(matches, ClampOffset(offset), ClampLimit(limit))[k]
    ensures r.Success? ==> r.value.meta == Meta(ClampLimit(limit), ClampOffset(offset), f, |matches|)
    ensures r.Success? ==> |r.value.objects| == |Window(matches, ClampOffset(offset), ClampLimit(limit))|
    ensures r.Success? ==> ClampLimit(limit) > 0 ==> |r.value.objects| <= ClampLimit(limit)
    ensures r.Success? ==> ClampOffset(offset) + |r.value.objects| <= |matches| || |r.value.objects| == 0
    ensures r.Success? ==> forall k :: 0 <= k < |r.value.objects| ==>
      ClampOffset(offset) + k < |matches| &&
      Pick(matches[ClampOffset(offset) + k], fields) == Success(r.value.objects[k])
    ensures r.Success? ==> forall o: Doc :: o in r.value.objects ==>
      exists d :: d in matches && Pick(d, fields) == Success(o)
    ensures r.Success? && ClampLimit(limit) > 0 && ClampOffset(offset) + ClampLimit(limit) <= |matches| ==>
      |r.value.objects| == ClampLimit(limit)
  {
    var off := ClampOffset(offset);
    var lim := ClampLimit(limit);
    var objects :- PickAll(Window(matches, off, lim), fields);
    forall o: Doc | o in objects
      ensures exists d :: d in matches && Pick(d, fields) == Success(o)
    {
      var k :| 0 <= k < |objects| && objects[k] == o;
      assert matches[off + k] in matches;
    }
    Success(Page(Meta(lim, off, f, |matches|), objects))
  }

  /** Every document of `c` carries every one of `fields`. */
  ghost predicate HasFields(c: seq<Doc>, fields: seq<Field>) {
    forall d, i :: d in c && 0 <= i < |fields| ==> fields[i] in d
  }

  /** A page drawn from documents that all carry the projected fields never
      raises `KeyError`. */
  lemma PageOfSucceeds(matches: seq<Doc>, f: Filter, limit: int, offset: int, fields: seq<Field>)
    requires HasFields(matches, fields)
    ensures PageOf(matches, f, limit, offset, fields).Success?
  {
    var p := Window(matches, ClampOffset(offset), ClampLimit(limit));
    forall k, i | 0 <= k < |p| && 0 <= i < |fields|
      ensures fields[i] in p[k]
    {
      assert p[k] == matches[ClampOffset(offset) + k] && p[k] in matches;
    }
  }

  /** Selecting with a stricter filter never counts more documents. */
  lemma {:induction false} CountMonotonic(c: seq<Doc>, strict: Filter, loose: Filter)
    requires forall d :: Matches(d, strict) ==> Matches(d, loose)
    ensures Count(c, strict) <= Count(c, loose)
  {
    if |c| > 0 {
      CountMonotonic(c[..|c| - 1], strict, loose);
    }
  }

  /** `find(f)` on collection `c`, counted and paged, with every document on
      the page cut down to `fields`. */
  function Listed(c: seq<Doc>, f: Filter, limit: int, offset: int, fields: seq<Field>): (r: Result<Page>)
    ensures r.Success? ==> r.value.meta == Meta(ClampLimit(limit), ClampOffset(offset), f, Count(c, f))
    ensures r.Success? && ClampLimit(limit) > 0 ==> |r.value.objects| <= ClampLimit(limit)
    ensures r.Success? ==> |r.value.objects| <= Count(c, f)
    ensures r.Success? ==> |r.value.objects| == |Window(Find(c, f), ClampOffset(offset), ClampLimit(limit))|
    ensures r.Success? ==> forall k :: 0 <= k < |r.value.objects| ==>
      ClampOffset(offset) + k < |Find(c, f)| &&
      Pick(Find(c, f)[ClampOffset(offset) + k], fields) == Success(r.value.objects[k])
    ensures r.Success? ==> forall o: Doc :: o in r.value.objects ==>
      exists d :: d in c && Matches(d, f) && Pick(d, fields) == Success(o)
    ensures HasFields(Find(c, f), fields) ==> r.Success?
  {
    var matches := Find(c, f);
    assert HasFields(matches, fields) ==> PageOf(matches, f, limit, offset, fields).Success? by {
      if HasFields(matches, fields) {
        PageOfSucceeds(matches, f, limit, offset, fields);
      }
    }
    PageOf(matches, f, limit, offset, fields)
  }

  /** The `limit` and `offset` a page reports, passed back in, ask for the
      same page again: clamping is the identity on clamped arguments. */
  lemma MetaReplays(c: seq<Doc>, f: Filter, limit: int, offset: int, fields: seq<Field>)
    ensures var r := Listed(c, f, limit, offset, fields);
      r.Success? ==> Listed(c, f, r.value.meta.limit, r.value.meta.offset, fields) == r
  {
    var r := Listed(c, f, limit, offset, fields);
    if r.Success? {
      assert ClampLimit(r.value.meta.limit) == ClampLimit(limit);
      assert ClampOffset(r.value.meta.offset) == ClampOffset(offset);
    }
  }

  /** A projection keeps the values of the fields it keeps. */
  lemma PickKeeps(d: Doc, fields: seq<Field>, o: Doc, i: nat)
    requires Pick(d, fields) == Success(o) && i < |fields|
    ensures fields[i] in o && fields[i] in d && o[fields[i]] == d[fields[i]]
  {
  }

  // ----- identifiers_journal -----

  const JournalFields: seq<Field> := [Code, Collection]

  /** The journal listing's query: the collection, when one is given. */
  function JournalFilter(collection: Option<string>): (f: Filter)
    ensures forall d :: Matches(d, f) <==>
      (PyStr.Truthy(collection) ==> FieldMatches(d, Collection, Eq(Str(collection.value))))
  {
    var f: Filter := if PyStr.Truthy(collection) then map[Collection := Eq(Str(collection.value))] else map[];
    forall d: Doc
      ensures Matches(d, f) <==>
        (PyStr.Truthy(collection) ==> FieldMatches(d, Collection, Eq(Str(collection.value))))
    {
      MatchesEmpty(d);
      if PyStr.Truthy(collection) {
        MatchesAdd(d, map[], Collection, Eq(Str(collection.value)));
        assert map[][Collection := Eq(Str(collection.value))] == f;
      }
    }
    f
  }

  /** `identifiers_journal`: a page of `{code, collection}` of the journals,
      optionally of one collection, in natural order. */
  function IdentifiersJournal(db: Db, collection: Option<string>, limit: int, offset: int): (r: Result<Page>)
    ensures r.Success? ==> r.value.meta.filter == JournalFilter(collection)
    ensures r.Success? ==> r.value.meta.total == Count(Coll(db, Journals), r.value.meta.filter)
    ensures r.Success? ==> r.value.meta.limit == ClampLimit(limit) && r.value.meta.offset == ClampOffset(offset)
    ensures r.Success? && r.value.meta.limit > 0 ==> |r.value.objects| <= r.value.meta.limit
    ensures r.Success? ==> forall o: Doc :: o in r.value.objects ==>
      exists d :: d in Coll(db, Journals) && Pick(d, JournalFields) == Success(o)
    ensures r.Success? && PyStr.Truthy(collection) ==> forall o: Doc :: o in r.value.objects ==>
      FieldMatches(o, Collection, Eq(Str(collection.value)))
    ensures HasFields(Coll(db, Journals), JournalFields) ==> r.Success?
    ensures r.Success? ==> var matches := Find(Coll(db, Journals), JournalFilter(collection));
      && |r.value.objects| == |Window(matches, ClampOffset(offset), ClampLimit(limit))|
      && forall k :: 0 <= k < |r.value.objects| ==>
           ClampOffset(offset) + k < |matches| &&
           Pick(matches[ClampOffset(offset) + k], JournalFields) == Success(r.value.objects[k])
  {
    var f := JournalFilter(collection);
    var r := Listed(Coll(db, Journals), f, limit, offset, JournalFields);
    assert r.Success? && PyStr.Truthy(collection) ==> forall o: Doc :: o in r.value.objects ==>
      FieldMatches(o, Collection, Eq(Str(collection.value))) by {
      if r.Success? && PyStr.Truthy(collection) {
        forall o: Doc | o in r.value.objects
          ensures FieldMatches(o, Collection, Eq(Str(collection.value)))
        {
          var d :| d in Coll(db, Journals) && Matches(d, f) && Pick(d, JournalFields) == Success(o);
          PickKeeps(d, JournalFields, o, 1);
        }
      }
    }
    r
  }

  // ----- identifiers_article and identifiers_press_release -----

  const ArticleListFields: seq<Field> := [Code, Collection, ProcessingDate]

  /** The article listing's query: processing date from `fromDate` to
      `untilDate`, both inclusive, plus the collection and an ISSN of the
      journal when given. */
  function ArticleFilter(collection: Option<string>, issn: Option<string>, fromDate: string, untilDate: string): (f: Filter)
    ensures forall d :: Matches(d, f) <==>
      && FieldMatches(d, ProcessingDate, Range(fromDate, true, untilDate))
      && (PyStr.Truthy(collection) ==> FieldMatches(d, Collection, Eq(Str(collection.value))))
      && (PyStr.Truthy(issn) ==> FieldMatches(d, CodeTitle, Eq(Str(issn.value))))
    ensures DocumentType !in f
  {
    var f0: Filter := map[ProcessingDate := Range(fromDate, true, untilDate)];
    var f1 := if PyStr.Truthy(collection) then f0[Collection := Eq(Str(collection.value))] else f0;
    var f2 := if PyStr.Truthy(issn) then f1[CodeTitle := Eq(Str(issn.value))] else f1;
    forall d: Doc
      ensures Matches(d, f2) <==>
        && FieldMatches(d, ProcessingDate, Range(fromDate, true, untilDate))
        && (PyStr.Truthy(collection) ==> FieldMatches(d, Collection, Eq(Str(collection.value))))
        && (PyStr.Truthy(issn) ==> FieldMatches(d, CodeTitle, Eq(Str(issn.value))))
    {
      MatchesEmpty(d);
      MatchesAdd(d, map[], ProcessingDate, Range(fromDate, true, untilDate));
      assert map[][ProcessingDate := Range(fromDate, true, untilDate)] == f0;
      if PyStr.Truthy(collection) {
        MatchesAdd(d, f0, Collection, Eq(Str(collection.value)));
      }
      if PyStr.Truthy(issn) {
        MatchesAdd(d, f1, CodeTitle, Eq(Str(issn.value)));
      }
    }
    f2
  }

  /** The press-release listing's query: the article query restricted to
      documents of type `press-release`. */
  function PressReleaseFilter(collection: Option<string>, issn: Option<string>, fromDate: string, untilDate: string): (f: Filter)
    ensures forall d :: Matches(d, f) <==>
      Matches(d, ArticleFilter(collection, issn, fromDate, untilDate)) && FieldMatches(d, DocumentType, Eq(Str("press-release")))
  {
    var a := ArticleFilter(collection, issn, fromDate, untilDate);
    var f := a[DocumentType := Eq(Str("press-release"))];
    forall d: Doc
      ensures Matches(d, f) <==> Matches(d, a) && FieldMatches(d, DocumentType, Eq(Str("press-release")))
    {
      MatchesAdd(d, a, DocumentType, Eq(Str("press-release")));
    }
    f
  }

  /** Objects listed under a processing-date window carry a processing date
      inside it. */
  lemma ObjectsInWindow(c: seq<Doc>, f: Filter, page: Page, fromDate: string, untilDate: string)
    requires forall d :: Matches(d, f) ==> FieldMatches(d, ProcessingDate, Range(fromDate, true, untilDate))
    requires forall o: Doc :: o in page.objects ==> exists d :: d in c && Matches(d, f) && Pick(d, ArticleListFields) == Success(o)
    ensures forall o: Doc :: o in page.objects ==>
      FieldMatches(o, ProcessingDate, Range(fromDate, true, untilDate))
  {
    forall o: Doc | o in page.objects
      ensures FieldMatches(o, ProcessingDate, Range(fromDate, true, untilDate))
    {
      var d :| d in c && Matches(d, f) && Pick(d, ArticleListFields) == Success(o);
      PickKeeps(d, ArticleListFields, o, 2);
    }
  }

  /** `identifiers_article`: a page of `{code, collection, processing_date}`
      of the articles processed between `fromDate` and `untilDate` (today when
      not given), optionally of one collection and one journal ISSN. */
  function IdentifiersArticle(db: Db, collection: Option<string>, issn: Option<string>, fromDate: string,
                              untilDate: Option<string>, limit: int, offset: int, today: string): (r: Result<Page>)
    ensures r.Success? ==> r.value.meta.filter == ArticleFilter(collection, issn, fromDate, PyStr.OrElse(untilDate, today))
    ensures r.Success? ==> r.value.meta.total == Count(Coll(db, Articles), r.value.meta.filter)
    ensures r.Success? ==> r.value.meta.limit == ClampLimit(limit) && r.value.meta.offset == ClampOffset(offset)
    ensures r.Success? && r.value.meta.limit > 0 ==> |r.value.objects| <= r.value.meta.limit
    ensures r.Success? ==> forall o: Doc :: o in r.value.objects ==>
      exists d :: d in Coll(db, Articles) && Matches(d, r.value.meta.filter) && Pick(d, ArticleListFields) == Success(o)
    ensures r.Success? ==> forall o: Doc :: o in r.value.objects ==>
      FieldMatches(o, ProcessingDate, Range(fromDate, true, PyStr.OrElse(untilDate, today)))
    ensures HasFields(Coll(db, Articles), [Code, Collection]) ==> r.Success?
    ensures r.Success? ==> var matches := Find(Coll(db, Articles), ArticleFilter(collection, issn, fromDate, PyStr.OrElse(untilDate, today)));
      && |r.value.objects| == |Window(matches, ClampOffset(offset), ClampLimit(limit))|
      && forall k :: 0 <= k < |r.value.objects| ==>
           ClampOffset(offset) + k < |matches| &&
           Pick(matches[ClampOffset(offset) + k], ArticleListFields) == Success(r.value.objects[k])
  {
    var until := PyStr.OrElse(untilDate, today);
    var f := ArticleFilter(collection, issn, fromDate, until);
    ArticleListingSucceeds(Coll(db, Articles), f, fromDate, until);
    var r := Listed(Coll(db, Articles), f, limit, offset, ArticleListFields);
    assert r.Success? ==> forall o: Doc :: o in r.value.objects ==>
      FieldMatches(o, ProcessingDate, Range(fromDate, true, until)) by {
      if r.Success? {
        ObjectsInWindow(Coll(db, Articles), f, r.value, fromDate, until);
      }
    }
    r
  }

  /** Articles that all carry a code and a collection can always be listed
      under a processing-date window: the window supplies the third field. */
  lemma ArticleListingSucceeds(c: seq<Doc>, f: Filter, fromDate: string, untilDate: string)
    requires forall d :: Matches(d, f) ==> FieldMatches(d, ProcessingDate, Range(fromDate, true, untilDate))
    ensures HasFields(c, [Code, Collection]) ==> HasFields(Find(c, f), ArticleListFields)
  {
    if HasFields(c, [Code, Collection]) {
      forall d, i | d in Find(c, f) && 0 <= i < |ArticleListFields|
        ensures ArticleListFields[i] in d
      {
        assert i < 2 ==> ArticleListFields[i] == [Code, Collection][i];
      }
    }
  }

  /** `identifiers_press_release`: `identifiers_article` restricted to
      documents of type `press-release`. */
  function IdentifiersPressRelease(db: Db, collection: Option<string>, issn: Option<string>, fromDate: string,
                                   untilDate: Option<string>, limit: int, offset: int, today: string): (r: Result<Page>)
    ensures r.Success? ==> r.value.meta.filter == PressReleaseFilter(collection, issn, fromDate, PyStr.OrElse(untilDate, today))
    ensures r.Success? ==> r.value.meta.total == Count(Coll(db, Articles), r.value.meta.filter)
    ensures r.Success? ==> r.value.meta.limit == ClampLimit(limit) && r.value.meta.offset == ClampOffset(offset)
    ensures r.Success? && r.value.meta.limit > 0 ==> |r.value.objects| <= r.value.meta.limit
    ensures r.Success? ==> forall o: Doc :: o in r.value.objects ==>
      exists d :: d in Coll(db, Articles) && Matches(d, r.value.meta.filter) && Pick(d, ArticleListFields) == Success(o)
    ensures r.Success? ==> forall o: Doc :: o in r.value.objects ==>
      FieldMatches(o, ProcessingDate, Range(fromDate, true, PyStr.OrElse(untilDate, today)))
    ensures HasFields(Coll(db, Articles), [Code, Collection]) ==> r.Success?
    ensures r.Success? ==> var matches := Find(Coll(db, Articles), PressReleaseFilter(collection, issn, fromDate, PyStr.OrElse(untilDate, today)));
      && |r.value.objects| == |Window(matches, ClampOffset(offset), ClampLimit(limit))|
      && forall k :: 0 <= k < |r.value.objects| ==>
           ClampOffset(offset) + k < |matches| &&
           Pick(matches[ClampOffset(offset) + k], ArticleListFields) == Success(r.value.objects[k])
  {
    var until := PyStr.OrElse(untilDate, today);
    var f := PressReleaseFilter(collection, issn, fromDate, until);
    ArticleListingSucceeds(Coll(db, Articles), f, fromDate, until);
    var r := Listed(Coll(db, Articles), f, limit, offset, ArticleListFields);
    assert r.Success? ==> forall o: Doc :: o in r.value.objects ==>
      FieldMatches(o, ProcessingDate, Range(fromDate, true, until)) by {
      if r.Success? {
        ObjectsInWindow(Coll(db, Articles), f, r.value, fromDate, until);
      }
    }
    r
  }

  /** Every press release the press-release listing counts is also counted by
      the article listing with the same arguments. */
  lemma PressReleasesAreArticles(db: Db, collection: Option<string>, issn: Option<string>, fromDate: string,
                                 untilDate: string)
    ensures Count(Coll(db, Articles), PressReleaseFilter(collection, issn, fromDate, untilDate))
         <= Count(Coll(db, Articles), ArticleFilter(collection, issn, fromDate, untilDate))
  {
    CountMonotonic(Coll(db, Articles), PressReleaseFilter(collection, issn, fromDate, untilDate),
                   ArticleFilter(collection, issn, fromDate, untilDate));
  }
}

=== FILE: normalize.dfy ===
/** The metadata normaliser: the fields `DataBroker` derives from a raw
    article or journal record before storing it. The parsing itself is done
    by the xylose library; its answers arrive here as `ParsedArticle` and
    `ParsedJournal` values. */
module Normalize {
  import opened Wrappers
  import opened Documents
  import PyStr

  /** What the xylose `Article` view reports about a raw article record. */
  datatype ParsedArticle = ParsedArticle(
    publisherId: string,
    /** `journal.any_issn(priority='electronic')` */
    electronicIssn: Option<string>,
    /** `journal.any_issn(priority='print')` */
    printIssn: Option<string>,
    collectionAcronym: string,
    documentType: string,
    publicationDate: string,
    doi: Option<string>,
    /** `None` when reading `processing_date` raises */
    processingDate: Option<string>)

  /** What the xylose `Journal` view reports about a raw journal record. */
  datatype ParsedJournal = ParsedJournal(
    electronicIssn: Option<string>,
    printIssn: Option<string>,
    collectionAcronym: string)

  /** The status flags every normalised article starts with, all `'False'`. */
  const StatusFlags: seq<Field> := [ValidatedScielo, ValidatedWos, SentWos, SentDoaj, Applicable]

  /** The fields article normalisation may write; every other field of the
      raw record passes through untouched. */
  const ArticleFields: set<Field> :=
    {Code, CodeIssue, CodeTitle, Collection, DocumentType, PublicationYear,
     ValidatedScielo, ValidatedWos, SentWos, SentDoaj, Applicable,
     ShardId, Doi, ProcessingDate}

  /** `list(set([electronic, printed]))`: the journal's ISSNs, each once, with a
      failed lookup kept as `None`. */
  function IssnList(electronic: Option<string>, printed: Option<string>): (r: seq<Value>)
    ensures NoDuplicates(r)
    ensures forall v :: v in r <==> v == FromOption(electronic) || v == FromOption(printed)
    ensures 1 <= |r| <= 2
    ensures |r| == 1 <==> electronic == printed
    ensures Null in r <==> electronic.None? || printed.None?
  {
    var e := FromOption(electronic);
    var p := FromOption(printed);
    assert [e, p][..1] == [e] && [e][..0] == [];
    assert Dedup([e]) == [e];
    assert (e == p) <==> (electronic == printed);
    Dedup([e, p])
  }

  /** `publisher_id[1:18]`: the issue part of an article's code, at most 17
      characters starting after the first one. */
  function IssueCode(publisherId: string): (r: string)
    ensures |r| <= 17
    ensures |publisherId| > 0 ==> r <= publisherId[1..]
    ensures |publisherId| <= 18 ==> r == (if |publisherId| == 0 then "" else publisherId[1..])
    ensures |publisherId| >= 18 ==> |r| == 17
  {
    var r := PyStr.Slice(publisherId, 1, 18);
    assert |publisherId| > 0 ==> r <= publisherId[1..];
    r
  }

  /** `publication_date[0:4]`: the year, or the whole date if it is shorter. */
  function Year(publicationDate: string): (r: string)
    ensures r <= publicationDate
    ensures |r| == (if |publicationDate| < 4 then |publicationDate| else 4)
  {
    PyStr.Slice(publicationDate, 0, 4)
  }

  /** The processing date normalisation writes, if any: the source's own,
      else today's date when the article is published after today, else none. */
  function ProcessingDateRule(a: ParsedArticle, today: string): (r: Option<string>)
    ensures a.processingDate.Some? ==> r == a.processingDate
    ensures a.processingDate.None? && PyStr.Lt(today, a.publicationDate) ==> r == Some(today)
    ensures a.processingDate.None? && !PyStr.Lt(today, a.publicationDate) ==> r.None?
  {
    match a.processingDate
    case Some(pd) => Some(pd)
    case None => if PyStr.Lt(today, a.publicationDate) then Some(today) else None
  }

  /** `_check_article_meta`: the raw record with the derived fields written
      over it. `today` is the ISO date of the call and `shard` the fresh
      random shard id. The contract states the key and whether a processing
      date results; the lemmas below state the other fields. */
  function CheckArticleMeta(metadata: RawDoc, a: ParsedArticle, today: string, shard: string): (r: Doc)
    ensures Code in r && r[Code] == Str(a.publisherId)
    ensures Collection in r && r[Collection] == Str(a.collectionAcronym)
    ensures ProcessingDate in r <==> ProcessingDateRule(a, today).Some? || ProcessingDate in metadata
  {
    Unsharded(metadata, a, today)[ShardId := Str(shard)]
  }

  /** Every field normalisation writes except the random `_shard_id`; the
      source writes the shard before the DOI and the processing date, which
      are other keys, so writing it last gives the same record. */
  function Unsharded(metadata: Doc, a: ParsedArticle, today: string): (r: Doc)
  {
    var m := metadata
      [Code := Str(a.publisherId)]
      [CodeIssue := Str(IssueCode(a.publisherId))]
      [CodeTitle := List(IssnList(a.electronicIssn, a.printIssn))]
      [Collection := Str(a.collectionAcronym)]
      [DocumentType := Str(a.documentType)]
      [PublicationYear := Str(Year(a.publicationDate))]
      [ValidatedScielo := Str("False")]
      [ValidatedWos := Str("False")]
      [SentWos := Str("False")]
      [SentDoaj := Str("False")]
      [Applicable := Str("False")];
    var m := if PyStr.Truthy(a.doi) then m[Doi := Str(a.doi.value)] else m;
    match ProcessingDateRule(a, today)
    case Some(pd) => m[ProcessingDate := Str(pd)]
    case None => m
  }

  /** The identifiers normalisation derives: code, issue code, the ISSN list
      as `code_title`, collection, document type and publication year. */
  lemma ArticleIdentifiers(metadata: RawDoc, a: ParsedArticle, today: string, shard: string)
    ensures var r := CheckArticleMeta(metadata, a, today, shard);
      && CodeIssue in r && r[CodeIssue] == Str(IssueCode(a.publisherId))
      && CodeTitle in r && r[CodeTitle] == List(IssnList(a.electronicIssn, a.printIssn))
      && DocumentType in r && r[DocumentType] == Str(a.documentType)
      && PublicationYear in r && r[PublicationYear] == Str(Year(a.publicationDate))
  {
  }

  /** Every status flag starts `'False'`, and the shard id is the one drawn. */
  lemma ArticleFlags(metadata: RawDoc, a: ParsedArticle, today: string, shard: string)
    ensures var r := CheckArticleMeta(metadata, a, today, shard);
      && (forall i :: 0 <= i < |StatusFlags| ==> StatusFlags[i] in r && r[StatusFlags[i]] == Str("False"))
      && ShardId in r && r[ShardId] == Str(shard)
  {
  }

  /** The DOI and processing date are written when the source has them and
      otherwise left as the raw record had them. */
  lemma ArticleOptionalFields(metadata: RawDoc, a: ParsedArticle, today: string, shard: string)
    ensures var r := CheckArticleMeta(metadata, a, today, shard);
      && (PyStr.Truthy(a.doi) ==> Doi in r && r[Doi] == Str(a.doi.value))
      && (!PyStr.Truthy(a.doi) ==> (Doi in r <==> Doi in metadata) && (Doi in r ==> r[Doi] == metadata[Doi]))
      && (ProcessingDateRule(a, today).Some? ==>
            ProcessingDate in r && r[ProcessingDate] == Str(ProcessingDateRule(a, today).value))
      && (ProcessingDateRule(a, today).None? ==>
            (ProcessingDate in r <==> ProcessingDate in metadata) &&
            (ProcessingDate in r ==> r[ProcessingDate] == metadata[ProcessingDate]))
  {
  }

  /** Normalisation writes only its own fields; the rest is the raw record. */
  lemma ArticlePassThrough(metadata: RawDoc, a: ParsedArticle, today: string, shard: string)
    ensures var r := CheckArticleMeta(metadata, a, today, shard);
      && (forall k :: k in r ==> k in metadata || k in ArticleFields)
      && (forall k :: k in metadata && k !in ArticleFields ==> k in r && r[k] == metadata[k])
  {
  }

  /** `_check_journal_meta`: the raw record with its ISSN list as `code` and
      its collection acronym. */
  function CheckJournalMeta(metadata: RawDoc, j: ParsedJournal): (r: Doc)
    ensures Code in r && r[Code] == List(IssnList(j.electronicIssn, j.printIssn))
    ensures Collection in r && r[Collection] == Str(j.collectionAcronym)
    ensures r.Keys == metadata.Keys + {Code, Collection}
    ensures forall k :: k in metadata && k != Code && k != Collection ==> r[k] == metadata[k]
  {
    Merge(metadata, map[Code := List(IssnList(j.electronicIssn, j.printIssn)), Collection := Str(j.collectionAcronym)])
  }

  /** Normalisation writes named fields only, so the normalised article is
      still keyed by names: no stale raw key can shadow a written one. */
  lemma ArticleStaysCanonical(metadata: RawDoc, a: ParsedArticle, today: string, shard: string)
    ensures Canonical(CheckArticleMeta(metadata, a, today, shard))
  {
    var r := CheckArticleMeta(metadata, a, today, shard);
    ArticleAddsNamedOnly(metadata, a, today, shard);
    forall k | k in r
      ensures FieldOf(FieldName(k)) == k
    {
      if k !in metadata {
        NamedFieldIsCanonical(k);
      }
    }
  }

  /** Every key normalisation adds to a raw record is a named field. */
  lemma ArticleAddsNamedOnly(metadata: RawDoc, a: ParsedArticle, today: string, shard: string)
    ensures forall k :: k in CheckArticleMeta(metadata, a, today, shard) && k !in metadata ==> !k.Raw?
  {
  }

  /** The normalised journal is still keyed by names. */
  lemma JournalStaysCanonical(metadata: RawDoc, j: ParsedJournal)
    ensures Canonical(CheckJournalMeta(metadata, j))
  {
    MergeKeepsCanonical(metadata, map[Code := List(IssnList(j.electronicIssn, j.printIssn)), Collection := Str(j.collectionAcronym)]);
  }

  /** Normalisation never writes `created_at`: the raw record's creation
      date, if any, survives it. */
  lemma CreatedAtUntouched(metadata: RawDoc, a: ParsedArticle, today: string, shard: string)
    ensures var r := CheckArticleMeta(metadata, a, today, shard);
      && (CreatedAt in r <==> CreatedAt in metadata)
      && (CreatedAt in metadata ==> r[CreatedAt] == metadata[CreatedAt])
  {
  }

  /** Normalisation depends on the shard id only through `_shard_id`: two
      normalisations of the same record on the same day differ in that field
      alone. */
  lemma ShardIsTheOnlyDifference(metadata: RawDoc, a: ParsedArticle, today: string, s1: string, s2: string)
    ensures CheckArticleMeta(metadata, a, today, s2) == CheckArticleMeta(metadata, a, today, s1)[ShardId := Str(s2)]
  {
    var u := Unsharded(metadata, a, today);
    assert u[ShardId := Str(s1)][ShardId := Str(s2)] == u[ShardId := Str(s2)];
  }
}

=== FILE: pystr.dfy ===
/** Python string behaviour the broker relies on: slicing with clamped bounds,
    the lexicographic order used by `<`/`>` on strings (and by MongoDB's
    `$gt`/`$lte` on string fields), and truthiness of an optional string. */
module PyStr {
  import opened Wrappers

  /** `s[i:j]` for non-negative bounds: bounds past the end are clamped to the
      length and an empty range gives the empty string, never an error. */
  function Slice(s: string, i: nat, j: nat): (r: string)
    ensures |r| <= |s|
    ensures i <= j ==> |r| <= j - i
    ensures i < j && j <= |s| ==> |r| == j - i
    ensures i < |s| && i < j ==> |r| == (if j <= |s| then j else |s|) - i
    ensures forall k :: 0 <= k < |r| ==> i + k < |s| && r[k] == s[i + k]
  {
    var hi := if j <= |s| then j else |s|;
    if i < hi then s[i..hi] else ""
  }

  /** Python's truth value of `None` or a string: only a non-empty string is true. */
  predicate Truthy(o: Option<string>) {
    o.Some? && o.value != ""
  }

  /** `x or fallback` for an optional string. */
  function OrElse(o: Option<string>, fallback: string): (r: string)
    ensures Truthy(o) ==> r == o.value
    ensures !Truthy(o) ==> r == fallback
  {
    if Truthy(o) then o.value else fallback
  }

  /** Strict lexicographic order on strings, character by character, with a
      proper prefix sorting first: Python's `a < b` on strings. */
  predicate Lt(a: string, b: string)
    decreases |a|
  {
    if |b| == 0 then false
    else if |a| == 0 then true
    else a[0] < b[0] || (a[0] == b[0] && Lt(a[1..], b[1..]))
  }

  /** Python's `a <= b` on strings. */
  predicate Le(a: string, b: string) {
    a == b || Lt(a, b)
  }

  lemma {:induction false} LtIrreflexive(a: string)
    ensures !Lt(a, a)
    decreases |a|
  {
    if |a| > 0 {
      LtIrreflexive(a[1..]);
    }
  }

  lemma {:induction false} LtTransitive(a: string, b: string, c: string)
    requires Lt(a, b) && Lt(b, c)
    ensures Lt(a, c)
    decreases |a|
  {
    if |a| > 0 && a[0] == b[0] && b[0] == c[0] {
      LtTransitive(a[1..], b[1..], c[1..]);
    }
  }

  lemma {:induction false} LtTotal(a: string, b: string)
    ensures a == b || Lt(a, b) || Lt(b, a)
    decreases |a|
  {
    if |a| > 0 && |b| > 0 && a[0] == b[0] {
      LtTotal(a[1..], b[1..]);
      if a[1..] == b[1..] {
        assert a == [a[0]] + a[1..] && b == [b[0]] + b[1..];
      }
    }
  }

  lemma LtAsymmetric(a: string, b: string)
    requires Lt(a, b)
    ensures !Lt(b, a) && a != b
  {
    if Lt(b, a) {
      LtTransitive(a, b, a);
      LtIrreflexive(a);
    }
    if a == b {
      LtIrreflexive(a);
    }
  }

  lemma LeTransitive(a: string, b: string, c: string)
    requires Le(a, b) && Le(b, c)
    ensures Le(a, c)
  {
    if Lt(a, b) && Lt(b, c) {
      LtTransitive(a, b, c);
    }
  }

  /** `not (a > b)` is `a <= b`: the negation of the strict order is the weak order reversed. */
  lemma NotLtIsLe(a: string, b: string)
    ensures !Lt(b, a) <==> Le(a, b)
  {
    LtTotal(a, b);
    if Lt(a, b) {
      LtAsymmetric(a, b);
    }
    if a == b {
      LtIrreflexive(a);
    }
  }
}

=== FILE: store.dfy ===
/** The MongoDB collaborator as far as the broker uses it: named collections
    of documents kept in natural (insertion) order, queried with `find`,
    `find_one`, `count`, `skip`/`limit`/`sort`, and changed with `insert`,
    `update` (optionally upserting) and `remove`. */
module Store {
  import opened Wrappers
  import opened Documents
  import PyStr

  /** The collections the broker touches: `journals`, `articles`, and the
      history `historychanges_<type>` of each document type. */
  datatype Name = Journals | Articles | HistoryOf(documentType: string)

  /** The database: each collection holds its documents in natural order.
      A collection that was never written is empty. */
  type Db = map<Name, seq<Doc>>

  function Coll(db: Db, name: Name): (r: seq<Doc>) {
    if name in db then db[name] else []
  }

  /** The documents of `c` whose match against `f` is `keep`, in their
      original order: `find(f)` when `keep`, what `remove(f)` leaves otherwise. */
  function Select(c: seq<Doc>, f: Filter, keep: bool): (r: seq<Doc>)
    ensures forall d :: d in r <==> d in c && Matches(d, f) == keep
    ensures |r| <= |c|
  {
    if |c| == 0 then []
    else
      var init := c[..|c| - 1];
      var last := c[|c| - 1];
      assert forall d :: d in c <==> d in init || d == last;
      Select(init, f, keep) + (if Matches(last, f) == keep then [last] else [])
  }

  /** Every document either matches or does not: the two selections share out `c`. */
  lemma {:induction false} SelectSplits(c: seq<Doc>, f: Filter)
    ensures |Select(c, f, true)| + |Select(c, f, false)| == |c|
  {
    if |c| > 0 {
      SelectSplits(c[..|c| - 1], f);
    }
  }

  /** Appending a document extends a selection by that document alone, if it qualifies. */
  lemma SelectAppend(c: seq<Doc>, x: Doc, f: Filter, keep: bool)
    ensures Select(c + [x], f, keep) == Select(c, f, keep) + (if Matches(x, f) == keep then [x] else [])
  {
    assert (c + [x])[..|c|] == c;
  }

  /** A selection keeps each document as often as `c` holds it, or drops it. */
  lemma {:induction false} SelectMultiplicity(c: seq<Doc>, f: Filter, keep: bool)
    ensures forall d :: multiset(Select(c, f, keep))[d] == if Matches(d, f) == keep then multiset(c)[d] else 0
  {
    if |c| > 0 {
      var init, last := c[..|c| - 1], c[|c| - 1];
      assert c == init + [last];
      SelectMultiplicity(init, f, keep);
      SelectAppend(init, last, f, keep);
    }
  }

  /** When no document matches, selecting the non-matching ones keeps `c` whole. */
  lemma {:induction false} SelectNone(c: seq<Doc>, f: Filter)
    requires forall d :: d in c ==> !Matches(d, f)
    ensures Select(c, f, false) == c
  {
    if |c| > 0 {
      var init, last := c[..|c| - 1], c[|c| - 1];
      assert c == init + [last];
      assert forall d :: d in init ==> d in c;
      SelectNone(init, f);
      SelectAppend(init, last, f, false);
    }
  }

  /** `find(f)`: the matching documents in natural order. */
  function Find(c: seq<Doc>, f: Filter): (r: seq<Doc>)
    ensures forall d :: d in r <==> d in c && Matches(d, f)
  {
    Select(c, f, true)
  }

  /** `find(f).count()`: how many documents match, whatever page is read later. */
  function Count(c: seq<Doc>, f: Filter): (n: nat)
    ensures n <= |c|
    ensures n == 0 <==> forall d :: d in c ==> !Matches(d, f)
  {
    var r := Find(c, f);
    assert |r| > 0 ==> r[0] in r;
    |r|
  }

  /** The positions of `c` holding a matching document. */
  ghost function MatchingPositions(c: seq<Doc>, f: Filter): (s: set<nat>)
    ensures forall i :: i in s <==> 0 <= i < |c| && Matches(c[i], f)
  {
    set i: nat | i < |c| && Matches(c[i], f)
  }

  /** Appending a document adds its position exactly when it matches. */
  lemma PositionsAppend(c: seq<Doc>, x: Doc, f: Filter)
    ensures |MatchingPositions(c + [x], f)| == |MatchingPositions(c, f)| + (if Matches(x, f) then 1 else 0)
  {
    var s, s' := MatchingPositions(c, f), MatchingPositions(c + [x], f);
    assert forall i :: 0 <= i < |c| ==> (c + [x])[i] == c[i];
    if Matches(x, f) {
      assert s' == s + {|c|};
    } else {
      assert s' == s;
    }
  }

  /** `count()` is the number of positions holding a matching document. */
  lemma {:induction false} CountMatches(c: seq<Doc>, f: Filter)
    ensures Count(c, f) == |MatchingPositions(c, f)|
  {
    if |c| > 0 {
      var init, last := c[..|c| - 1], c[|c| - 1];
      assert c == init + [last];
      CountMatches(init, f);
      SelectAppend(init, last, f, true);
      PositionsAppend(init, last, f);
    }
  }

  /** Position of the first matching document, or `|c|` when none matches. */
  function FirstMatch(c: seq<Doc>, f: Filter): (i: nat)
    ensures i <= |c|
    ensures i < |c| ==> Matches(c[i], f)
    ensures forall j :: 0 <= j < i ==> !Matches(c[j], f)
  {
    if |c| == 0 then 0
    else if Matches(c[0], f) then 0
    else 1 + FirstMatch(c[1..], f)
  }

  /** `find_one(f)`: the first matching document in natural order. */
  function FindOne(c: seq<Doc>, f: Filter): (r: Option<Doc>)
    ensures r.Some? <==> exists d :: d in c && Matches(d, f)
    ensures r.Some? ==> r.value in c && Matches(r.value, f)
    ensures r.Some? <==> Count(c, f) > 0
  {
    var i := FirstMatch(c, f);
    if i < |c| then Some(c[i]) else None
  }

  /** The document an upsert creates when nothing matches: the filter's
      equality fields. */
  function Seed(f: Filter): (d: Doc)
    ensures forall k :: k in d <==> k in f && f[k].Eq?
    ensures forall k :: k in d ==> d[k] == f[k].v
  {
    map k | k in f && f[k].Eq? :: f[k].v
  }

  /** The filter is an equality test on fields the patch itself writes, with
      the values it writes: every merge of the patch matches the filter. */
  predicate Agrees(f: Filter, patch: Doc) {
    forall k :: k in f ==> f[k].Eq? && k in patch && patch[k] == f[k].v
  }

  lemma MergeMatches(prev: Doc, f: Filter, patch: Doc)
    requires Agrees(f, patch)
    ensures Matches(Merge(prev, patch), f)
  {
  }

  /** `update(f, {'$set': patch}, upsert=True)` on one collection: the first
      matching document absorbs the patch; if none matches, one document built
      from the filter and the patch is appended. */
  function UpsertInto(c: seq<Doc>, f: Filter, patch: Doc): (r: seq<Doc>)
    ensures |r| == |c| + (if FindOne(c, f).None? then 1 else 0)
    ensures forall j :: 0 <= j < |c| && j != FirstMatch(c, f) ==> r[j] == c[j]
    ensures forall d :: d in r ==> d in c || patch.Keys <= d.Keys
  {
    var i := FirstMatch(c, f);
    if i < |c| then c[i := Merge(c[i], patch)] else c + [Merge(Seed(f), patch)]
  }

  /** When the patch agrees with the filter, the upserted record is what
      `find_one` on the same filter returns afterwards. */
  lemma UpsertFinds(c: seq<Doc>, f: Filter, patch: Doc)
    requires Agrees(f, patch)
    ensures FindOne(UpsertInto(c, f, patch), f) == Some(Merge(FindOne(c, f).GetOr(Seed(f)), patch))
  {
    UpsertUnfold(c, f, patch);
    UpsertFirstMatch(c, f, patch, UpsertInto(c, f, patch));
  }

  lemma UpsertFirstMatch(c: seq<Doc>, f: Filter, patch: Doc, r: seq<Doc>)
    requires Agrees(f, patch)
    requires FirstMatch(c, f) < |c| ==> r == c[FirstMatch(c, f) := Merge(c[FirstMatch(c, f)], patch)]
    requires FirstMatch(c, f) == |c| ==> r == c + [Merge(Seed(f), patch)]
    ensures FindOne(r, f) == Some(Merge(FindOne(c, f).GetOr(Seed(f)), patch))
  {
    var i := FirstMatch(c, f);
    var prior := if i < |c| then c[i] else Seed(f);
    MergeMatches(prior, f, patch);
    assert r[i] == Merge(prior, patch);
    FirstMatchAt(r, f, i);
  }

  /** `update(f, {'$set': patch}, upsert=True)` on collection `name`. */
  function Upsert(db: Db, name: Name, f: Filter, patch: Doc): (r: Db)
    ensures forall n :: n != name ==> Coll(r, n) == Coll(db, n)
    ensures Coll(r, name) == UpsertInto(Coll(db, name), f, patch)
  {
    db[name := UpsertInto(Coll(db, name), f, patch)]
  }

  /** The first match is the earliest matching position. */
  lemma {:induction false} FirstMatchAt(c: seq<Doc>, f: Filter, i: nat)
    requires i < |c| && Matches(c[i], f)
    requires forall j :: 0 <= j < i ==> !Matches(c[j], f)
    ensures FirstMatch(c, f) == i
  {
    if i > 0 {
      FirstMatchAt(c[1..], f, i - 1);
    }
  }

  /** Upserting twice under one filter, the second patch writing at least the
      fields of the first, leaves what the second upsert alone would. */
  lemma UpsertTwice(c: seq<Doc>, f: Filter, p1: Doc, p2: Doc)
    requires Agrees(f, p1)
    requires p1.Keys <= p2.Keys
    ensures UpsertInto(UpsertInto(c, f, p1), f, p2) == UpsertInto(c, f, p2)
  {
    if FirstMatch(c, f) < |c| {
      UpsertTwiceInPlace(c, f, p1, p2);
    } else {
      UpsertTwiceAppended(c, f, p1, p2);
    }
  }

  lemma UpsertTwiceInPlace(c: seq<Doc>, f: Filter, p1: Doc, p2: Doc)
    requires Agrees(f, p1)
    requires p1.Keys <= p2.Keys
    requires FirstMatch(c, f) < |c|
    ensures UpsertInto(UpsertInto(c, f, p1), f, p2) == UpsertInto(c, f, p2)
  {
    var i := FirstMatch(c, f);
    var c1 := c[i := Merge(c[i], p1)];
    assert UpsertInto(c, f, p1) == c1 by { UpsertUnfold(c, f, p1); }
    assert UpsertInto(c, f, p2) == c[i := Merge(c[i], p2)] by { UpsertUnfold(c, f, p2); }
    assert FirstMatch(c1, f) == i by {
      MergeMatches(c[i], f, p1);
      FirstMatchKept(c, f, Merge(c[i], p1));
    }
    assert UpsertInto(c1, f, p2) == c1[i := Merge(c1[i], p2)] by { UpsertUnfold(c1, f, p2); }
    assert Merge(c1[i], p2) == Merge(c[i], p2) by { MergeAbsorbs(c[i], p1, p2); }
    UpdateTwice(c, i, Merge(c[i], p1), Merge(c[i], p2));
  }

  /** Replacing the first match by another matching document keeps it first. */
  lemma FirstMatchKept(c: seq<Doc>, f: Filter, x: Doc)
    requires FirstMatch(c, f) < |c| && Matches(x, f)
    ensures FirstMatch(c[FirstMatch(c, f) := x], f) == FirstMatch(c, f)
  {
    var i := FirstMatch(c, f);
    assert forall j :: 0 <= j < i ==> c[i := x][j] == c[j];
    FirstMatchAt(c[i := x], f, i);
  }

  /** With no match before it, an appended matching document is the first. */
  lemma {:induction false} FirstMatchAppended(c: seq<Doc>, f: Filter, x: Doc)
    requires FirstMatch(c, f) == |c| && Matches(x, f)
    ensures FirstMatch(c + [x], f) == |c|
  {
    assert forall j :: 0 <= j < |c| ==> (c + [x])[j] == c[j];
    FirstMatchAt(c + [x], f, |c|);
  }

  lemma ReplaceLast<T>(s: seq<T>, a: T, b: T)
    ensures (s + [a])[|s| := b] == s + [b]
  {
  }

  lemma UpdateTwice<T>(s: seq<T>, i: nat, a: T, b: T)
    requires i < |s|
    ensures s[i := a][i := b] == s[i := b]
  {
  }

  lemma UpsertTwiceAppended(c: seq<Doc>, f: Filter, p1: Doc, p2: Doc)
    requires Agrees(f, p1)
    requires p1.Keys <= p2.Keys
    requires FirstMatch(c, f) == |c|
    ensures UpsertInto(UpsertInto(c, f, p1), f, p2) == UpsertInto(c, f, p2)
  {
    var c1 := c + [Merge(Seed(f), p1)];
    assert UpsertInto(c, f, p1) == c1 by { UpsertUnfold(c, f, p1); }
    assert UpsertInto(c, f, p2) == c + [Merge(Seed(f), p2)] by { UpsertUnfold(c, f, p2); }
    assert FirstMatch(c1, f) == |c| by {
      MergeMatches(Seed(f), f, p1);
      FirstMatchAppended(c, f, Merge(Seed(f), p1));
    }
    assert UpsertInto(c1, f, p2) == c1[|c| := Merge(c1[|c|], p2)] by { UpsertUnfold(c1, f, p2); }
    assert Merge(c1[|c|], p2) == Merge(Seed(f), p2) by { MergeAbsorbs(Seed(f), p1, p2); }
    ReplaceLast(c, Merge(Seed(f), p1), Merge(Seed(f), p2));
  }

  /** The two shapes an upsert takes: an update in place or an append. */
  lemma UpsertUnfold(c: seq<Doc>, f: Filter, patch: Doc)
    ensures FirstMatch(c, f) < |c| ==>
      UpsertInto(c, f, patch) == c[FirstMatch(c, f) := Merge(c[FirstMatch(c, f)], patch)]
    ensures FirstMatch(c, f) == |c| ==> UpsertInto(c, f, patch) == c + [Merge(Seed(f), patch)]
  {
  }

  /** What an upsert stores: the first match, or a record seeded from the
      filter, with every field of the patch set over it. */
  lemma UpsertStores(c: seq<Doc>, f: Filter, patch: Doc)
    requires Agrees(f, patch)
    ensures var d := Merge(FindOne(c, f).GetOr(Seed(f)), patch);
      && d in UpsertInto(c, f, patch)
      && Carries(d, patch)
  {
    UpsertFinds(c, f, patch);
  }

  /** A field the patch does not write and the filter does not test keeps,
      through an upsert, whatever the first match had. */
  lemma UpsertLeavesUnwritten(c: seq<Doc>, f: Filter, patch: Doc, k: Field)
    requires Agrees(f, patch) && k !in patch && k !in f
    ensures var before := FindOne(c, f);
      var after := FindOne(UpsertInto(c, f, patch), f);
      && after.Some?
      && (k in after.value <==> before.Some? && k in before.value)
      && (k in after.value ==> after.value[k] == before.value[k])
  {
    UpsertFinds(c, f, patch);
    assert k !in Seed(f);
  }

  /** `update(f, {'$set': patch})` without upsert: only the first matching
      document changes, and nothing happens when none matches. */
  function UpdateFirst(db: Db, name: Name, f: Filter, patch: Doc): (r: Db)
    ensures FindOne(Coll(db, name), f).None? ==> r == db
    ensures forall n :: n != name ==> Coll(r, n) == Coll(db, n)
    ensures |Coll(r, name)| == |Coll(db, name)|
    ensures forall j :: 0 <= j < |Coll(db, name)| && j != FirstMatch(Coll(db, name), f) ==>
      Coll(r, name)[j] == Coll(db, name)[j]
    ensures FindOne(Coll(db, name), f).Some? ==>
      Coll(r, name)[FirstMatch(Coll(db, name), f)] == Merge(FindOne(Coll(db, name), f).value, patch)
  {
    var c := Coll(db, name);
    var i := FirstMatch(c, f);
    if i < |c| then db[name := c[i := Merge(c[i], patch)]] else db
  }

  /** `remove(f)`: every matching document goes, every other one stays in order. */
  function Remove(db: Db, name: Name, f: Filter): (r: Db)
    ensures forall n :: n != name ==> Coll(r, n) == Coll(db, n)
    ensures forall d :: d in Coll(r, name) <==> d in Coll(db, name) && !Matches(d, f)
    ensures |Coll(r, name)| == |Coll(db, name)| - Count(Coll(db, name), f)
    ensures Coll(r, name) == Select(Coll(db, name), f, false)
  {
    var c := Coll(db, name);
    SelectSplits(c, f);
    db[name := Select(c, f, false)]
  }

  /** Removing with a filter nothing matches changes no collection. */
  lemma RemoveNothing(db: Db, name: Name, f: Filter)
    requires forall d :: d in Coll(db, name) ==> !Matches(d, f)
    ensures forall n :: Coll(Remove(db, name, f), n) == Coll(db, n)
  {
    SelectNone(Coll(db, name), f);
  }

  /** `insert(d)`: appends one document and returns its position as its id. */
  function Insert(db: Db, name: Name, d: Doc): (r: (Db, nat))
    ensures Coll(r.0, name) == Coll(db, name) + [d]
    ensures forall n :: n != name ==> Coll(r.0, n) == Coll(db, n)
    ensures r.1 < |Coll(r.0, name)| && Coll(r.0, name)[r.1] == d
  {
    var c := Coll(db, name);
    (db[name := c + [d]], |c|)
  }

  /** `cursor.skip(offset).limit(limit)`: the window of at most `limit`
      documents starting at position `offset`; MongoDB reads a limit of 0 as
      no limit at all. */
  function Window<T>(xs: seq<T>, offset: nat, limit: nat): (r: seq<T>)
    ensures limit > 0 ==> |r| <= limit
    ensures offset + |r| <= |xs| || |r| == 0
    ensures forall k :: 0 <= k < |r| ==> r[k] == xs[offset + k]
    ensures offset < |xs| && (limit == 0 || offset + limit >= |xs|) ==> offset + |r| == |xs|
    ensures offset < |xs| && limit > 0 && offset + limit <= |xs| ==> |r| == limit
  {
    if offset >= |xs| then []
    else if limit == 0 || offset + limit >= |xs| then xs[offset..]
    else xs[offset..offset + limit]
  }

  /** Sort key of a document for `sort(field)`: the string stored there. */
  function KeyOf(d: Doc, field: Field): (r: string) {
    if field in d && d[field].Str? then d[field].s else ""
  }

  ghost predicate SortedBy(xs: seq<Doc>, field: Field) {
    forall i, j :: 0 <= i < j < |xs| ==> PyStr.Le(KeyOf(xs[i], field), KeyOf(xs[j], field))
  }

  /** A window of a sorted sequence is sorted. */
  lemma WindowKeepsSorted(xs: seq<Doc>, offset: nat, limit: nat, field: Field)
    requires SortedBy(xs, field)
    ensures SortedBy(Window(xs, offset, limit), field)
  {
    var r := Window(xs, offset, limit);
    forall i, j | 0 <= i < j < |r|
      ensures PyStr.Le(KeyOf(r[i], field), KeyOf(r[j], field))
    {
      assert r[i] == xs[offset + i] && r[j] == xs[offset + j];
    }
  }

  /** A head no greater than any element of a sorted tail keeps the sequence sorted. */
  lemma SortedCons(h: Doc, t: seq<Doc>, field: Field)
    requires SortedBy(t, field)
    requires forall y :: y in t ==> PyStr.Le(KeyOf(h, field), KeyOf(y, field))
    ensures SortedBy([h] + t, field)
  {
    var r := [h] + t;
    forall i, j | 0 <= i < j < |r|
      ensures PyStr.Le(KeyOf(r[i], field), KeyOf(r[j], field))
    {
      if i == 0 {
        assert r[j] == t[j - 1] && t[j - 1] in t;
      } else {
        assert r[i] == t[i - 1] && r[j] == t[j - 1];
      }
    }
  }

  /** The tail of a sorted sequence is sorted. */
  lemma SortedTail(xs: seq<Doc>, field: Field)
    requires SortedBy(xs, field) && |xs| > 0
    ensures SortedBy(xs[1..], field)
  {
    var t := xs[1..];
    forall i, j | 0 <= i < j < |t|
      ensures PyStr.Le(KeyOf(t[i], field), KeyOf(t[j], field))
    {
      assert t[i] == xs[i + 1] && t[j] == xs[j + 1];
    }
  }

  /** Everything in a sorted sequence is no smaller than its head. */
  lemma HeadIsLeast(xs: seq<Doc>, field: Field, k: string)
    requires SortedBy(xs, field) && |xs| > 0
    requires PyStr.Le(k, KeyOf(xs[0], field))
    ensures forall y :: y in xs ==> PyStr.Le(k, KeyOf(y, field))
  {
    forall y | y in xs
      ensures PyStr.Le(k, KeyOf(y, field))
    {
      var j :| 0 <= j < |xs| && xs[j] == y;
      assert j == 0 || PyStr.Le(KeyOf(xs[0], field), KeyOf(xs[j], field));
      PyStr.LeTransitive(k, KeyOf(xs[0], field), KeyOf(y, field));
    }
  }

  /** The elements of a permutation of `t` plus `x` are bounded below as `t` and `x` are. */
  lemma LowerBoundPermutation(h: Doc, t: seq<Doc>, x: Doc, rest: seq<Doc>, field: Field)
    requires multiset(rest) == multiset(t) + multiset{x}
    requires PyStr.Le(KeyOf(h, field), KeyOf(x, field))
    requires forall y :: y in t ==> PyStr.Le(KeyOf(h, field), KeyOf(y, field))
    ensures forall y :: y in rest ==> PyStr.Le(KeyOf(h, field), KeyOf(y, field))
  {
    forall y | y in rest
      ensures PyStr.Le(KeyOf(h, field), KeyOf(y, field))
    {
      assert y in multiset(rest);
      assert y == x || y in multiset(t);
    }
  }

  /** Inserts `x` after every element whose key is not greater than its own,
      so documents with equal keys keep their order of arrival. */
  function InsertSorted(x: Doc, xs: seq<Doc>, field: Field): (r: seq<Doc>)
    requires SortedBy(xs, field)
    ensures SortedBy(r, field)
    ensures multiset(r) == multiset(xs) + multiset{x}
  {
    if |xs| == 0 then [x]
    else if PyStr.Lt(KeyOf(x, field), KeyOf(xs[0], field)) then
      HeadIsLeast(xs, field, KeyOf(x, field));
      SortedCons(x, xs, field);
      [x] + xs
    else
      var h := xs[0];
      var t := xs[1..];
      assert xs == [h] + t;
      SortedTail(xs, field);
      var rest := InsertSorted(x, t, field);
      PyStr.NotLtIsLe(KeyOf(h, field), KeyOf(x, field));
      HeadIsLeast(xs, field, KeyOf(h, field));
      LowerBoundPermutation(h, t, x, rest, field);
      SortedCons(h, rest, field);
      [h] + rest
  }

  /** `cursor.sort(field)`: the same documents in ascending order of `field`. */
  function SortBy(xs: seq<Doc>, field: Field): (r: seq<Doc>)
    ensures SortedBy(r, field)
    ensures multiset(r) == multiset(xs)
  {
    if |xs| == 0 then []
    else
      assert xs == xs[..|xs| - 1] + [xs[|xs| - 1]];
      InsertSorted(xs[|xs| - 1], SortBy(xs[..|xs| - 1], field), field)
  }

  /** An element no smaller than every element of a sorted sequence goes last. */
  lemma {:induction false} InsertAfterAll(x: Doc, xs: seq<Doc>, field: Field)
    requires SortedBy(xs, field)
    requires forall y :: y in xs ==> PyStr.Le(KeyOf(y, field), KeyOf(x, field))
    ensures InsertSorted(x, xs, field) == xs + [x]
  {
    if |xs| > 0 {
      var h, t := xs[0], xs[1..];
      assert xs == [h] + t;
      assert !PyStr.Lt(KeyOf(x, field), KeyOf(h, field)) by {
        assert h in xs;
        PyStr.NotLtIsLe(KeyOf(h, field), KeyOf(x, field));
      }
      SortedTail(xs, field);
      assert forall y :: y in t ==> y in xs;
      InsertAfterAll(x, t, field);
      assert InsertSorted(x, xs, field) == [h] + InsertSorted(x, t, field);
      assert [h] + (t + [x]) == xs + [x];
    }
  }

  /** Sorting documents that are already in order leaves them as they are:
      among equal keys the order of arrival is kept. */
  lemma {:induction false} SortKeepsSorted(xs: seq<Doc>, field: Field)
    requires SortedBy(xs, field)
    ensures SortBy(xs, field) == xs
  {
    if |xs| > 0 {
      var init, last := xs[..|xs| - 1], xs[|xs| - 1];
      assert xs == init + [last];
      assert SortedBy(init, field) by {
        forall i, j | 0 <= i < j < |init|
          ensures PyStr.Le(KeyOf(init[i], field), KeyOf(init[j], field))
        {
          assert init[i] == xs[i] && init[j] == xs[j];
        }
      }
      assert forall y :: y in init ==> PyStr.Le(KeyOf(y, field), KeyOf(last, field)) by {
        forall y | y in init
          ensures PyStr.Le(KeyOf(y, field), KeyOf(last, field))
        {
          var j :| 0 <= j < |init| && init[j] == y;
          assert xs[j] == y;
        }
      }
      assert SortBy(xs, field) == InsertSorted(last, init, field) by {
        SortKeepsSorted(init, field);
        assert SortBy(xs, field) == InsertSorted(last, SortBy(init, field), field);
      }
      InsertAfterAll(last, init, field);
    }
  }
}

=== FILE: wrappers.dfy ===
/** Failure-compatible wrappers used throughout the model: `Option` for Python's
    `None`-or-value, `Result` for a value or a raised exception. */
module Wrappers {

  datatype Option<+T> = None | Some(value: T) {

    /** `self or default` for a value that cannot be falsy. */
    function GetOr(default: T): (r: T) {
      match this
      case Some(v) => v
      case None => default
    }
  }

  /** The exceptions the modelled code can raise. */
  datatype Error =
    /** A dictionary lookup `d[field]` on a document that lacks `field`. */
    | KeyError(field: string)

  datatype Result<+T> = Success(value: T) | Failure(error: Error) {

    predicate IsFailure() {
      Failure?
    }

    function PropagateFailure<U>(): (r: Result<U>)
      requires Failure?
    {
      Failure(error)
    }

    function Extract(): (r: T)
      requires Success?
    {
      value
    }
  }
}
